=== FILE: README.md ===
# local-compose supervision core in Dafny

local-compose runs several services (child processes) side by side. Each
service gets an *executor* thread. The thread starts the child, forwards the
child's output line by line over an *event bus*, and reports the start and
the exit status. A *scheduler* loop does the following:

- takes messages off the bus;
- hands output lines to a *printer*;
- announces starts and stops;
- records the first exit status as its own;
- once something has stopped, terminates everything else gracefully;
- escalates to a forced kill after a grace period;
- exits once everything has stopped and the bus is drained.

SIGINT and SIGTERM overwrite the exit status (130 and 143) and terminate.

The model is purely functional. Threads, queues, signals, the clock and the
operating system become explicit inputs and outputs:

- One loop iteration is a function of the scheduler state, the current time
  (a `nat` clock) and, in the current revision, a snapshot of the pool that
  the executor threads update.
- A signal is a separate transition.
- A run is a fold over a sequence of events: iterations, messages sent by
  executor threads, and signals.
- The state records what the loop does to the outside. That is the messages
  it puts back on the bus, the messages it hands to the printer, and the
  terminate/kill requests it makes of the OS.

Modules:

- `Base`: Option/Result, bytes, `Max`, `IndexOf`, `Flatten`, decimal rendering.
- `Messaging`: the tagged message record of compose/messaging.py.
- `Printing`: the message record the runtime uses, and `Printer`
  (`__init__`, `write`, `adjust_width`) of compose/printing.py.
- `Readiness`: `Readiness` and the `RetryLogic` counter of compose/readiness.py.
- `Executors`: services and executors, and `_run_service` as a trace of
  actions (assign pid, send, assign exit status) over an abstract child. Both
  revisions share this code (compose/runtime.py:32-44 and
  compose/execution.py:32-44 are identical).
- `Pools`: the executor pool as an insertion-ordered dictionary, with
  `Executor.stop` and `stop_all`. This is `ExecutorsPool` in
  compose/runtime.py and `Pool` in compose/execution.py. Their registry and
  `stop_all` code is the same, and `stop` differs only in the notice it
  sends, so the notice is a parameter.
- `Supervision`: signals, exit codes and loop outcomes shared by both scheduler
  revisions.
- `Runtime`: compose/runtime.py, the current revision. It holds the event
  bus, the system notice `stop` sends, and the scheduler loop.
- `Execution`: compose/execution.py, the earlier revision of the executor.
  Its stop notices are `'line'` messages under the service's own name.
- `Scheduler`: compose/scheduler.py, the earlier revision of the loop. The
  pool is part of its state, system notices go straight to the printer, and
  `KILL_WAIT` is 3.

The runtime forwards `'line'` messages to the printer, but `Printer.write`
accepts only `'output'`. The model keeps both as written and proves that the
printer rejects everything the loops forward
(`Runtime.PrinterRejectsForwardedLines`, `Scheduler.SystemNoticesRejected`).

## Model

| member | source | states |
|---|---|---|
| Messaging.Make | compose/messaging.py:13-20 | data, name and color are stored exactly as given; a missing time becomes the clock reading, an explicit one is kept |
| Messaging.DefaultsAreNoneAndNow | compose/messaging.py:13-18 | with both optional arguments omitted the color is None and the time is the clock reading |
| Messaging.ExplicitTimeIgnoresClock | compose/messaging.py:17-20 | a message built with an explicit time is the same whatever the clock says |
| Messaging.SubclassesDifferOnlyByTag | compose/messaging.py:23-50 | two subclasses built from the same arguments agree on every field but the tag, so their field values coincide exactly when the tags do (Python itself compares the objects by identity) |
| Readiness.NewRetryLogic | compose/readiness.py:18-25 | the counter starts at 0; attempts None means unbounded, otherwise the given bound; wait None means 5 |
| Readiness.NewReadiness | compose/readiness.py:5-9 | a missing configuration or a missing `retry` key reads as an empty retry dictionary; given attempts and wait are passed on |
| Readiness.EmptyConfigurationsGiveDefaults | compose/readiness.py:5-9 | None, `{}` and `{'retry': {}}` all give an unbounded counter waiting 5 seconds |
| Readiness.DoRetry | compose/readiness.py:27-34 | answers yes exactly when done < attempts, and then increments the counter; otherwise leaves it unchanged |
| Readiness.NewRetryLogicValid | compose/readiness.py:18-25 | a fresh counter is within its bound |
| Readiness.DoRetryPreservesValid | compose/readiness.py:31-33 | a retry never pushes the counter past a finite bound and keeps attempts and wait |
| Readiness.FiniteAnswersFrom | compose/readiness.py:31-34 | under a finite bound n, call i from a counter at d answers yes exactly when d + i < n |
| Readiness.NoMoreAnswers | compose/readiness.py:31-34 | once a finite counter has reached its bound every later call answers no |
| Readiness.FirstNCallsRetry | compose/readiness.py:18-34 | on a fresh counter with bound N exactly the first N calls answer yes |
| Readiness.UnboundedAlwaysRetries | compose/readiness.py:20-34 | without a bound every call answers yes and the counter counts them all |
| Readiness.CounterCountsRetries | compose/readiness.py:27-34 | after k calls the counter has grown by the number of yes answers and is still within its bound |
| Printing.NewPrinter | compose/printing.py:67-74 | time format defaults to `%H:%M:%S`, use_prefix defaults to True, width starts at 0; given arguments are kept |
| Printing.Ljust | compose/printing.py:87 | the padded name is the name followed by spaces up to the width, never shorter than the name |
| Printing.NameColumn | compose/printing.py:83-89 | a None name reads as empty; the column is the padded name plus one space, or empty exactly when the padded name is |
| Printing.SplitLines | compose/printing.py:97 | lines contain no line feed, and there are none exactly for empty text |
| Printing.SplitJoinRoundTrip | compose/printing.py:97 | splitting text written as terminated lines gives back exactly those lines |
| Printing.SplitUnterminated | compose/printing.py:97 | text without a line feed is one line, kept whole |
| Printing.SplitJoinUnterminatedRoundTrip | compose/printing.py:97 | terminated lines followed by a final line without line feed split back into all of them, the last one included |
| Printing.SplitAtFirstLineFeed | compose/printing.py:97 | splitting peels off the text up to the first line feed as the first line |
| Printing.SplitCrLf | compose/printing.py:97 | a line ended by `\r\n` is split off without its carriage return |
| Printing.PayloadText | compose/printing.py:91-97 | str data is used as is, bytes are decoded, and the dictionaries have no text |
| Printing.OutputLines | compose/printing.py:97-99 | there is always at least one line; empty data gives the single empty line |
| Printing.LineCalls | compose/printing.py:101-106 | one writer call per line, in order, each the prefix followed by the line, in the message's color |
| Printing.Prefix | compose/printing.py:102-105 | `'{time} {name}| '` when use_prefix is set (the formatted time, a space, the name column, the bar separator, with the exact length), `''` otherwise; the column contents are in PrefixShape |
| Printing.Write | compose/printing.py:76-106 | RuntimeError exactly when the type is not `'output'`; a dictionary payload fails; otherwise at least one call, each in the message color and starting with the prefix, with no line feed after it |
| Printing.WriteOutputText | compose/printing.py:92-106 | for an output message the calls are the prefixed output lines of its text |
| Printing.WriteEmitsEachLine | compose/printing.py:97-106 | text written as lines reaches the writer as one call per line, in order, prefix plus exactly that line |
| Printing.WriteLines | compose/printing.py:97-106 | when the text splits into known lines the calls are those lines, prefixed, in order |
| Printing.WriteEmptyData | compose/printing.py:97-101 | empty data gives exactly one call: the bare prefix |
| Printing.WriteWithoutPrefix | compose/printing.py:101-106 | without prefixes the writer receives the bare lines |
| Printing.WriteDecodesBytes | compose/printing.py:91-95 | a byte payload is written exactly as its decoded text |
| Printing.PrefixShape | compose/printing.py:102-105 | with prefixes every line starts with the formatted time and a space, then the name (empty for None) padded with spaces to the column width, then the `"| "` separator; the prefix length follows from them |
| Printing.AdjustWidth | compose/printing.py:108-112 | the width becomes the larger of the old width and the name length; nothing else changes |
| Printing.AdjustWidthIdempotent | compose/printing.py:108-112 | widening twice for the same name equals widening once |
| Printing.AdjustWidthCommutes | compose/printing.py:108-112 | the order in which names widen the printer does not matter |
| Executors.NewExecutor | compose/runtime.py:11-17 | a new executor is named after its service and has neither pid nor exit status |
| Executors.ServiceMessage | compose/runtime.py:46-47 | `_send_message` builds a message of the given type and data, named after the service and in its color (compose/execution.py:46-47 alike, with its own time) |
| Executors.ReadLines | compose/runtime.py:37 | the lines read concatenate back to the child's output; every line but the last ends in a newline and no line has one inside |
| Executors.ReadLinesFlattenRoundTrip | compose/runtime.py:37 | reading lines back from their concatenation gives exactly those lines |
| Executors.RunService | compose/runtime.py:32-44 | a run assigns the pid, sends start with the pid, sends the lines unless quiet, sends stop with the exit status, assigns the exit status |
| Executors.RunServiceSendsBetween | compose/runtime.py:33-44 | between assigning the pid and assigning the exit status a run only sends |
| Executors.RunServiceFieldOrder | compose/runtime.py:33-44 | the pid is set from before the start message on; the exit status stays None until after the stop message; the run ends with both set |
| Executors.RunServiceMessages | compose/runtime.py:35-43 | start first, stop last, output lines between that concatenate to the child's output; a quiet service sends exactly two messages (compose/execution.py:32-44 is the same code) |
| Executors.Sent | compose/runtime.py:35-43 | every message a run puts on the bus comes from one of its sends; a trace of sends only yields their messages one for one and in order, one without sends yields nothing |
| Executors.SignalRequest | compose/runtime.py:27-30 | a kill exactly when forced, otherwise a terminate, for the given pid |
| Pools.Add | compose/runtime.py:71-72 | keyed by the executor's name; an existing name keeps its position, a new one is appended |
| Pools.Empty | compose/runtime.py:67-68 | a new pool holds no executors and no keys (compose/execution.py:51-52 alike) |
| Pools.Get | compose/runtime.py:74-75 | finds something exactly for a registered name |
| Pools.AddThenGet | compose/runtime.py:71-75 | the latest executor added under a name is the one found; other names are unaffected |
| Pools.GetUnknown | compose/runtime.py:74-75 | a name not registered in the pool gives None, whatever else the pool holds; an empty pool knows no name |
| Pools.AllStarted | compose/runtime.py:89-90 | all_started holds exactly when every executor, taken in dict order, has a pid (compose/execution.py:72-73 alike) |
| Pools.AllStopped | compose/runtime.py:92-93 | all_stopped holds exactly when every executor, taken in dict order, has an exit status (compose/execution.py:75-76 alike) |
| Pools.AnyStopped | compose/runtime.py:95-96 | any_stopped holds exactly when some executor, taken in dict order, has an exit status (compose/execution.py:78-79 alike) |
| Pools.AddSameNameTwice | compose/runtime.py:71-72 | adding two executors under one name keeps only the second |
| Pools.EmptyPoolQueries | compose/runtime.py:89-96 | on an empty pool all_started and all_stopped hold and any_stopped fails (likewise compose/execution.py:72-79) |
| Pools.AllStoppedGivesAnyStopped | compose/runtime.py:92-96 | on a non-empty pool all_stopped implies any_stopped |
| Pools.AddAllStarted | compose/runtime.py:89-90 | after an add, all started exactly when the new executor and every other one has a pid |
| Pools.AddAllStopped | compose/runtime.py:92-93 | after an add, all stopped exactly when the new executor and every other one has an exit status |
| Pools.AddAnyStopped | compose/runtime.py:95-96 | after an add, something has stopped exactly when the new executor or some other one has |
| Pools.RunningAmong | compose/runtime.py:85-86 | keeps exactly the listed names without exit status, each once |
| Pools.Running | compose/runtime.py:84-87 | the names stop_all visits are exactly those without exit status, each once |
| Pools.RunningEmptyIffAllStopped | compose/runtime.py:84-93 | nothing is left to stop exactly when all have stopped |
| Pools.RequestsFor | compose/runtime.py:84-87 | one request per name, in order, with that executor's pid and the requested signal |
| Pools.Stop | compose/runtime.py:23-30 | stop sends the revision's notice first, then exactly one request for the executor's pid: a kill when forced, a terminate otherwise (compose/execution.py:23-30 alike) |
| Pools.StopRequestsOnce | compose/runtime.py:23-30 | one stop enqueues exactly one notice and makes exactly one request, never both a terminate and a kill |
| Pools.StopNotices | compose/runtime.py:84-87 | stopping several executors sends one notice per executor, in the order given |
| Pools.StopEach | compose/runtime.py:84-87 | stopping names in turn makes their requests in order and sends their notices in order |
| Pools.StopAll | compose/runtime.py:84-87 | stop_all requests a stop of each executor without exit status, in pool order, and sends their notices (compose/execution.py:67-70 alike) |
| Pools.StopAllTargetsRunning | compose/runtime.py:84-87 | every executor without exit status is signalled, only they are, once each, all with the requested signal |
| Pools.StopAllNoticesFromRunning | compose/runtime.py:84-87 | each notice stop_all sends is that of an executor without exit status |
| Pools.StopAllAfterAllStopped | compose/runtime.py:84-87 | once everything has stopped, stop_all does nothing |
| Supervision.SignalExitCode | compose/runtime.py:110-119 | the exit status a signal imposes is 128 plus its number: 130 for SIGINT, 143 for SIGTERM |
| Base.NatToString | compose/runtime.py:148 | the decimal digits of a number, without leading zero, that denote exactly that number |
| Base.IntToString | compose/runtime.py:148 | `str` of an int as the notices format pids and exit statuses: a leading `-` exactly for negatives, followed by the decimal digits of the magnitude |
| Supervision.NameText | compose/runtime.py:148 | a notice shows the name, or `None` when there is none |
| Runtime.Send | compose/runtime.py:60-61 | a sent message goes behind everything sent before |
| Runtime.NewEventBus | compose/runtime.py:51-52 | a new bus holds no messages |
| Runtime.Receive | compose/runtime.py:54-58 | an empty bus yields the sentinel and stays as it was; otherwise the oldest message comes off the front |
| Runtime.NoMessages | compose/runtime.py:58 | the sentinel has type `no_messages`, name `system`, the fixed text and no color |
| Runtime.SystemLine | compose/runtime.py:63-64 | system notices are `'line'` messages named `system` without color |
| Runtime.SendSystem | compose/runtime.py:63-64 | send_system appends exactly one system notice |
| Runtime.ReceiveManyTakesPrefix | compose/runtime.py:54-61 | k receives return the first k queued messages and leave the rest |
| Runtime.BusIsFifo | compose/runtime.py:54-61 | messages come back in the order they were sent; afterwards receive yields the sentinel and the bus stays empty |
| Runtime.StopNotice | compose/runtime.py:23-26 | the current revision's stop notice is a system `'line'` message without color naming the signal, the service and its pid |
| Runtime.StopAllAnnouncesRunning | compose/runtime.py:23-26 | every notice stop_all sends is a system notice naming the signal and an executor without exit status, with its pid |
| Runtime.NewScheduler | compose/runtime.py:102-138 | kill_wait defaults to 5; no exit status, not terminating, no do_exit, no exit_start, nothing sent or requested |
| Runtime.AddService | compose/runtime.py:121-124 | the service's fresh executor is registered, other names unaffected, and the printer widened to the name |
| Runtime.Terminate | compose/runtime.py:169-173 | only the first call has an effect: it marks terminating and issues the graceful stop_all |
| Runtime.Kill | compose/runtime.py:175-176 | requests a forced stop of exactly the executors without exit status, puts the forced stop_all's notices on the bus, and changes nothing else |
| Runtime.TerminateIdempotent | compose/runtime.py:169-173 | terminating twice equals terminating once |
| Runtime.TerminateStopsRunningGracefully | compose/runtime.py:169-173 | the first terminate requests graceful stops of exactly the running executors and keeps the exit status and loop flags |
| Runtime.OnSignal | compose/runtime.py:127-130 | announce the signal on the bus, overwrite the exit status with the signal's code, terminate; the bus ends with exactly the signal notice followed by the graceful stop notices when terminate had not run before |
| Runtime.SignalExitCodes | compose/runtime.py:110-130 | after SIGINT the exit status is 130, after SIGTERM 143, whatever it was |
| Runtime.Dispatch | compose/runtime.py:144-153 | lines go to the printer; start needs a pid and stop a returncode (TypeError or KeyError otherwise); a start sends "name started (pid=…)" and a stop "name stopped (rc=…)" on the bus, other types send nothing; the first stop sets the exit status, later ones keep it |
| Runtime.Handle | compose/runtime.py:140-167 | an iteration that breaks or raises leaves the state as it was; one that goes on hands the printer exactly the received `'line'` message; the rest of its behaviour is in LoopBreaksOnlyWhenDrained, FirstStopSetsReturncode, KillAfterWait and HandleKeepsRecords |
| Runtime.Step | compose/runtime.py:140-141 | an iteration handles the oldest message on the bus, or the sentinel when the bus is empty; its properties are in LoopBreaksOnlyWhenDrained, FirstStopSetsReturncode, KillAfterWait and StepKeepsRecords |
| Runtime.LoopBreaksOnlyWhenDrained | compose/runtime.py:141-143 | the loop ends exactly on the sentinel while do_exit is set, and ending changes nothing |
| Runtime.FirstStopSetsReturncode | compose/runtime.py:149-153 | a recorded exit status survives every iteration; the first stop message sets it to the message's status; nothing else sets it |
| Runtime.DrainStartsOnce | compose/runtime.py:158-160 | exit_start is recorded once, at the first iteration where all have started and any has stopped, together with terminate |
| Runtime.DoExitOnceAllDone | compose/runtime.py:155-156 | do_exit holds after an iteration exactly when it held before or all have started and stopped |
| Runtime.BeginDrain | compose/runtime.py:158-160 | exit_start is recorded, and terminating set, exactly when it was unset and all have started and any has stopped; the graceful stop requests are added only if terminate had not run before |
| Runtime.Escalate | compose/runtime.py:162-167 | past kill_wait after exit_start, forced stop requests for exactly the executors without exit status are added and the forced stop_all's notices are sent on the bus; nothing else changes |
| Runtime.MarkExit | compose/runtime.py:155-156 | do_exit becomes set when all have started and stopped, and nothing else changes |
| Runtime.Checks | compose/runtime.py:155-167 | after the checks do_exit holds iff it held or all have started and stopped; the drain begins at most once; the requests grow by the graceful stops when the drain begins and by kills when the grace period is over |
| Runtime.KillAfterWait | compose/runtime.py:162-167 | every iteration more than kill_wait after exit_start ends with forced stop requests for all executors without exit status |
| Runtime.NoKillBeforeWait | compose/runtime.py:158-167 | before the drain or within kill_wait of it an iteration adds only graceful requests |
| Runtime.HandleForwardsLines | compose/runtime.py:144-145 | the printer receives exactly the handled `'line'` messages, appended in order |
| Runtime.PrinterRejectsForwardedLines | compose/runtime.py:144-145 | Printer.write raises RuntimeError on every `'line'` message (it accepts only `'output'`, compose/printing.py:80-81) |
| Runtime.BeginDrainKeepsRecords | compose/runtime.py:158-160 | beginning the drain never moves exit_start and adds no request once terminating |
| Runtime.EscalateKeepsRecords | compose/runtime.py:162-167 | escalation only adds kill requests |
| Runtime.ChecksKeepRecords | compose/runtime.py:155-167 | the checks keep the exit status, exit_start, do_exit and terminating once set, and add only kills once terminating |
| Runtime.HandleKeepsRecords | compose/runtime.py:141-167 | one iteration on a received message keeps the same records and never replaces a recorded exit status |
| Runtime.StepKeepsRecords | compose/runtime.py:140-167 | an iteration keeps the exit status, exit_start, do_exit and terminating once set; the request log only grows, and only with kills once terminating |
| Runtime.FeedKeepsRecords | compose/runtime.py:126-167 | every event keeps the records; only a signal may replace the exit status |
| Runtime.Feed | compose/runtime.py:126-167 | a delivered message goes to the back of the bus and changes nothing else; a signal sets the signal's exit status and terminating; only an iteration can end the loop |
| Runtime.Run | compose/runtime.py:126-167 | a run ends, by a break or an exception, only at a loop iteration |
| Runtime.StepForwardsLines | compose/runtime.py:141-145 | an iteration appends to what the printer received, and only `'line'` messages |
| Runtime.FeedForwardsLines | compose/runtime.py:126-145 | every event appends only `'line'` messages to what the printer received |
| Runtime.RunKeepsRecords | compose/runtime.py:126-173 | over a whole run the same holds; without signals the first exit status is final, so the graceful stop happens at most once |
| Runtime.RunForwardsOnlyLines | compose/runtime.py:140-145 | over a whole run the printer only ever receives `'line'` messages |
| Execution.StopNotice | compose/execution.py:24-26 | the notice is a `'line'` message naming the signal, under the service's own name and color, stamped now |
| Execution.StopAllAnnouncesUnderOwnNames | compose/execution.py:23-26 | every notice stop_all sends is a `'line'` message under the name and color of a registered executor without exit status, naming the signal |
| Scheduler.NewScheduler | compose/scheduler.py:30-56 | empty pool, the given printer, no exit status, not terminating, no exit flag, no exit_start, nothing printed or requested |
| Scheduler.AddService | compose/scheduler.py:38-42 | a fresh executor for the named service is registered, other names unaffected, and the printer width becomes max(width, len(name)) |
| Scheduler.AddServiceWidens | compose/scheduler.py:42 | the printer is never narrowed and always fits the new name |
| Scheduler.SetPid | compose/scheduler.py:69 | records the pid on the named executor only; an unknown name changes nothing |
| Scheduler.SetRc | compose/scheduler.py:73 | records the exit status on the named executor only; an unknown name changes nothing |
| Scheduler.SystemLine | compose/scheduler.py:101-102 | system notices are `'line'` messages named `system`, without color, stamped now |
| Scheduler.SystemPrint | compose/scheduler.py:101-102 | a system notice goes straight to the printer and changes nothing else |
| Scheduler.Terminate | compose/scheduler.py:92-96 | only the first call has an effect: it marks terminating and issues the graceful stop_all |
| Scheduler.Kill | compose/scheduler.py:98-99 | requests a forced stop of exactly the executors without exit status and puts the forced stop_all's notices on the events queue |
| Scheduler.TerminateIdempotent | compose/scheduler.py:92-96 | a second terminate, at any time, changes nothing |
| Scheduler.OnSignal | compose/scheduler.py:45-48 | print the signal notice, overwrite the exit status with 130/143, terminate, keep the pool and loop flags |
| Scheduler.SignalExitCodes | compose/scheduler.py:15-24 | after SIGINT the exit status is 130, after SIGTERM 143 |
| Scheduler.Dispatch | compose/scheduler.py:64-76 | a line goes to the printer with the pool unchanged; start needs a pid and stop a returncode (TypeError or KeyError otherwise); a start records the pid and prints "name started (pid=…)", a stop records the exit status and prints "name stopped (rc=…)"; other types change neither; the first stop sets the exit status |
| Scheduler.DispatchAsWritten | compose/scheduler.py:67-73 | as written, every well-formed start or stop message raises AttributeError; other messages are dispatched as above |
| Scheduler.HandleAsWritten | compose/scheduler.py:58-90 | as written, timeouts and messages other than start/stop behave as in the corrected loop |
| Scheduler.AsWrittenStartRaises | compose/scheduler.py:67-69 | as written, the first start message ends start() with AttributeError |
| Scheduler.StartRecordsPid | compose/scheduler.py:67-70 | with the pool update, a start for a registered name records its pid and prints the started notice |
| Scheduler.StopRecordsReturncode | compose/scheduler.py:71-76 | with the pool update, a stop for a registered name records its exit status, so something has stopped, and prints the stopped notice |
| Scheduler.Handle | compose/scheduler.py:58-90 | an iteration that goes on keeps the pool well formed |
| Scheduler.Continue | compose/scheduler.py:64-90 | a failed dispatch ends the iteration with its exception and the state unchanged; otherwise the checks run and the loop goes on |
| Scheduler.LoopBreaksOnlyOnTimeout | compose/scheduler.py:60-63 | the loop ends exactly on a timeout while exit is set; a timeout without exit still runs the checks |
| Scheduler.FirstStopSetsReturncode | compose/scheduler.py:71-76 | a recorded exit status survives every iteration; the first stop sets it; nothing else sets it |
| Scheduler.ExitOnceAllDone | compose/scheduler.py:78-79 | exit holds after an iteration exactly when it held before or all have started and stopped |
| Scheduler.BeginDrain | compose/scheduler.py:81-83 | exit_start is recorded, and terminating set, exactly when it was unset and all have started and any has stopped; graceful stop requests are added only if terminate had not run before |
| Scheduler.Escalate | compose/scheduler.py:85-90 | more than 3 seconds after exit_start, forced stop requests for exactly the executors without exit status are added and their notices queued; nothing else changes |
| Scheduler.MarkExit | compose/scheduler.py:78-79 | exit becomes set when all have started and stopped, and nothing else changes |
| Scheduler.Checks | compose/scheduler.py:78-90 | the pool stays as it was; exit holds iff it held or all have started and stopped; the drain begins at most once; the requests grow by graceful stops when it begins and by kills after the grace period |
| Scheduler.DrainStartsOnce | compose/scheduler.py:81-83 | exit_start is recorded once, when all have started and any has stopped, together with terminate |
| Scheduler.KillAfterWait | compose/scheduler.py:85-90 | every iteration more than 3 seconds after exit_start ends with forced stop requests for all executors without exit status |
| Scheduler.NoKillBeforeWait | compose/scheduler.py:81-90 | before the drain or within 3 seconds of it an iteration adds only graceful requests |
| Scheduler.SystemNoticesRejected | compose/scheduler.py:101-102 | system notices are named `system` without color, and Printer.write rejects them |
| Scheduler.Step | compose/scheduler.py:58-63 | one get and one iteration keep the pool well formed |
| Scheduler.BeginDrainKeepsRecords | compose/scheduler.py:81-83 | beginning the drain never moves exit_start and adds no request once terminating |
| Scheduler.EscalateKeepsRecords | compose/scheduler.py:85-90 | escalation only adds kill requests |
| Scheduler.ChecksKeepRecords | compose/scheduler.py:78-90 | the end-of-iteration checks keep the exit status, exit_start, exit and terminating; requests only grow, only with kills once terminating |
| Scheduler.HandleKeepsRecords | compose/scheduler.py:58-90 | an iteration never withdraws a recorded exit status, exit_start, exit or terminating; requests only grow |
| Scheduler.FeedKeepsRecords | compose/scheduler.py:44-90 | every event, the get from the queue included, keeps the records; only a signal may replace the exit status |
| Scheduler.Feed | compose/scheduler.py:44-90 | a delivered message goes to the back of the queue and changes nothing else; a signal sets the signal's exit status and terminating; only an iteration can end the loop |
| Scheduler.Run | compose/scheduler.py:44-90 | a run ends, by a break or an exception, only at a loop iteration; while it goes on the pool stays well formed |
| Scheduler.RunKeepsRecords | compose/scheduler.py:44-99 | over a whole run the same holds; without signals the first exit status is final |
| Scheduler.DispatchPrintsLines | compose/scheduler.py:65-74 | a dispatch appends at most one message to what the printer received, and only a `'line'` message: the output line or a system notice |
| Scheduler.HandlePrintsLines | compose/scheduler.py:58-90 | an iteration appends only `'line'` messages to what the printer received; the checks print nothing |
| Scheduler.FeedPrintsLines | compose/scheduler.py:44-90 | every event, signals included, appends only `'line'` messages to what the printer received |
| Scheduler.RunPrintsOnlyLines | compose/scheduler.py:44-102 | over a whole run the printer only ever receives `'line'` messages, so Printer.write rejects every one |

## Findings

| source | as written | input that shows it | evidently intended | confidence | as-written member | corrected member |
|---|---|---|---|---|---|---|
| compose/scheduler.py:69,73 | the loop calls `set_pid` and `set_rc` on the pool, but `Pool` in compose/execution.py:50-79 defines neither | any start message with a pid, e.g. type `'start'`, data `{'pid': 1}`: the call raises AttributeError out of `start()` | record the pid or exit status on the named executor | high; not executed | Scheduler.AsWrittenStartRaises | Scheduler.StartRecordsPid |

`Scheduler.DispatchAsWritten` and `Scheduler.HandleAsWritten` model the
loop as written. `Scheduler.Dispatch`, `Scheduler.SetPid` and
`Scheduler.SetRc` give the two calls their intended meaning. The rest of the
`Scheduler` module uses the corrected version, and
`Scheduler.StopRecordsReturncode` covers `set_rc`.

## Left out

- Threads, `queue.Queue`/`multiprocessing.Queue` timeouts and the 0.1 s poll. The interleaving is an explicit event sequence. A receive timeout is the empty-bus case.
- Signal installation (`signal.signal`). A signal is a transition between iterations, not an interruption inside one.
- The wall clock. Time is a `nat`, and `timedelta` comparison is `now - exit_start > kill_wait` on it. Each iteration reads the clock once, whereas the source calls `now()` twice in some branches.
- Runtime.StopNotice: the default timestamp of `printing.Message` is evaluated once when the module is loaded. It appears as the fixed `stamp` of the runtime's state, not as a clock reading.
- Executors.RunService: one timestamp for the whole run. compose/execution.py stamps each message with its own `now()` reading.
- `strftime` and UTF-8 decoding with replacement. They are function parameters of `Printing.Write`.
- Printing.SplitLines: only `\n` and `\r\n` end a line. Python's `splitlines` also splits on `\r`, `\v`, `\f`, `\x1c`-`\x1e`, `\x85`, `\u2028` and `\u2029`.
- A service's own `run()` (process spawning), its command, environment and working directory. A child is given as pid, output bytes and exit status.
- `start_all` and the executor threads' own writes of `child_pid`/`returncode` in the earlier revision. There the pool changes only through `set_pid`/`set_rc`, which write the same values.
- The output writers, and the OS process control behind `terminate_pid`/`kill_pid` (process groups, errno filtering). Requests are only recorded.
- Executors.SignalRequest: a stop before the executor has a pid is recorded as a request for pid None. In the source `os.kill(None, …)` raises TypeError, which compose/system.py does not catch (it catches only OSError). The model does not raise there.
- Readiness.NewReadiness: an explicit `{'retry': None}` raises AttributeError in the source. The model treats it like a missing key. Float bounds and waits are not modelled; attempts and wait are integers.
- Printing.Write: only the payload shapes the runtime sends are modelled (str, bytes, and the `pid`/`returncode` dictionaries). A None payload is not.
- compose/message.py and compose/executor.py are not part of this model. They are older drafts that cannot run as written.
- The printer rejects the `'line'` messages both loops forward to it. This mismatch is kept as written and not reconciled. The loop's state records what it hands to the printer and does not raise.

=== FILE: base.dfy ===
/** Small building blocks shared by every other module: optional values,
    results with an error side, bytes, and the decimal rendering Python's
    `str.format` applies to integers and to `None`. */
module Base {

  /** Python's `None`-or-value. */
  datatype Option<+T> = None | Some(value: T)

  /** A computation that either returns a value or raises an exception. */
  datatype Result<+R, +E> = Success(value: R) | Failure(error: E)

  /** One octet of a byte string. */
  newtype byte = x: int | 0 <= x < 256

  const NEWLINE_BYTE: byte := 10

  function Max(a: int, b: int): (m: int)
    ensures m >= a && m >= b
    ensures m == a || m == b
  {
    if a >= b then a else b
  }

  /** Index of the first occurrence of `x` in `s`, or `|s|` when there is none. */
  function IndexOf<T(==)>(s: seq<T>, x: T): (i: nat)
    ensures i <= |s|
    ensures i < |s| ==> s[i] == x
    ensures forall j :: 0 <= j < i ==> s[j] != x
  {
    if s == [] then 0
    else if s[0] == x then 0
    else 1 + IndexOf(s[1..], x)
  }

  /** Concatenation of a sequence of sequences. */
  function Flatten<T>(ss: seq<seq<T>>): seq<T>
  {
    if ss == [] then [] else ss[0] + Flatten(ss[1..])
  }

  lemma {:induction false} FlattenAppend<T>(ss: seq<seq<T>>, s: seq<T>)
    ensures Flatten(ss + [s]) == Flatten(ss) + s
  {
    if ss == [] {
      assert ss + [s] == [s];
    } else {
      assert (ss + [s])[1..] == ss[1..] + [s];
      FlattenAppend(ss[1..], s);
    }
  }

  function DigitChar(d: nat): (c: char)
    requires d < 10
    ensures '0' <= c <= '9'
    ensures c as int - '0' as int == d
  {
    "0123456789"[d]
  }

  /** The number a string of decimal digits denotes, most significant
      digit first; the reference reading for `NatToString`. */
  function DigitsValue(s: string): nat
    requires forall i :: 0 <= i < |s| ==> '0' <= s[i] <= '9'
  {
    if s == [] then 0 else 10 * DigitsValue(s[..|s| - 1]) + (s[|s| - 1] as int - '0' as int)
  }

  /** Decimal rendering of a natural number, most significant digit first:
      digits only, no leading zero, and denoting exactly `n`. */
  function NatToString(n: nat): (s: string)
    ensures 1 <= |s|
    ensures forall i :: 0 <= i < |s| ==> '0' <= s[i] <= '9'
    ensures n < 10 <==> |s| == 1
    ensures |s| > 1 ==> s[0] != '0'
    ensures DigitsValue(s) == n
  {
    if n < 10 then [DigitChar(n)] else NatToString(n / 10) + [DigitChar(n % 10)]
  }

  /** `str(i)` for a Python int. */
  function IntToString(i: int): (s: string)
    ensures 1 <= |s|
    ensures s[0] == '-' <==> i < 0
    ensures i >= 0 ==> s == NatToString(i)
    ensures i < 0 ==> s[1..] == NatToString(-i)
  {
    if i < 0 then "-" + NatToString(-i) else NatToString(i)
  }

  /** `str(x)` for a Python value that is either an int or `None`. */
  function OptionIntToString(o: Option<int>): string
  {
    match o
    case None => "None"
    case Some(i) => IntToString(i)
  }
}

=== FILE: execution.dfy ===
/** compose/execution.py, the earlier revision of the executor. Running a
    service, the pool registry, `stop` and `stop_all` are the same code as
    in the current revision and are shared with it (modules Executors and
    Pools). What differs is the notice `stop` sends: a `'line'` message
    under the service's own name and color, stamped with the time of the
    call, rather than a system notice. */
module Execution {
  import opened Base
  import opened Printing
  import opened Executors
  import opened Pools

  /** The text of the notice `stop(force)` sends before signalling. */
  function StopNoticeText(force: bool): string
  {
    "about to get " + SignalName(force) + " from System\n"
  }

  /** The notice itself: `_send_message(msg, 'line')`. */
  function StopNotice(e: Executor, force: bool, now: Time): (m: Message)
    ensures m.type_ == "line"
    ensures m.name == Some(e.service.name) && m.color == e.service.color
    ensures m.data == Text(StopNoticeText(force)) && m.time == now
  {
    ServiceMessage(e, LINE_TYPE, Text(StopNoticeText(force)), now)
  }

  /** This revision's `stop` notices, all stamped with the time of the call. */
  function StopNotifier(now: Time): Notifier
  {
    (e: Executor, force: bool) => StopNotice(e, force, now)
  }

  /** Each executor `stop_all` stops announces it with a `'line'` message
      under its own name and color, and only executors without an exit
      status do. */
  lemma StopAllAnnouncesUnderOwnNames(p: Pool, force: bool, now: Time)
    requires Valid(p)
    ensures var ms := Enqueued(StopAll(p, force, StopNotifier(now)));
            forall i :: 0 <= i < |ms| ==>
              && ms[i].type_ == "line"
              && ms[i].name.Some? && ms[i].name.value in p.execs
              && p.execs[ms[i].name.value].returncode.None?
              && ms[i].color == p.execs[ms[i].name.value].service.color
              && ms[i].data == Text(StopNoticeText(force))
  {
    StopAllNoticesFromRunning(p, force, StopNotifier(now));
  }
}

=== FILE: executors.dfy ===
/** The executor that owns one child process, as both revisions of the
    runtime (compose/runtime.py and compose/execution.py) define it.

    The child is abstract: its pid, the bytes it writes to stdout and its
    exit status are inputs. Running a service is a pure function from that
    child to the trace of what `_run_service` does: assignments to the
    executor's fields and messages put on the bus, in program order. The
    operating system is a capability that receives terminate and kill
    requests; the model records them instead of sending signals. */
module Executors {
  import opened Base
  import opened Printing

  /** The fields of compose/service.py that the runtime reads. */
  datatype Service = Service(name: string, quiet: bool, color: Option<string>)

  /** One executor: its service and the two fields its run assigns. */
  datatype Executor = Executor(service: Service, childPid: Option<int>, returncode: Option<int>)
  {
    function Name(): string { service.name }
  }

  /** `Executor(event_bus, service, os)`: nothing started, nothing stopped. */
  function NewExecutor(service: Service): (e: Executor)
    ensures e.Name() == service.name
    ensures e.childPid.None? && e.returncode.None?
  {
    Executor(service, None, None)
  }

  /** What the operating system reports about one spawned child. */
  datatype Child = Child(pid: int, stdout: seq<byte>, returncode: int)

  const LINE_TYPE := "line"
  const START_TYPE := "start"
  const STOP_TYPE := "stop"

  /** Length of the first line of `s`, its line feed included. */
  function FirstLineLength(s: seq<byte>): (n: nat)
    requires s != []
    ensures 1 <= n <= |s|
    ensures forall j :: 0 <= j < n - 1 ==> s[j] != NEWLINE_BYTE
    ensures n < |s| ==> s[n - 1] == NEWLINE_BYTE
  {
    var j := IndexOf(s, NEWLINE_BYTE);
    if j == |s| then |s| else j + 1
  }

  /** A line as `readline` returns it: not empty, no line feed before its
      last byte. */
  predicate ReadLine(l: seq<byte>)
  {
    |l| > 0 && forall j :: 0 <= j < |l| - 1 ==> l[j] != NEWLINE_BYTE
  }

  /** `iter(child.stdout.readline, b'')`: the stream cut after every line
      feed; only the last line may lack one. */
  function ReadLines(s: seq<byte>): (lines: seq<seq<byte>>)
    ensures Flatten(lines) == s
    ensures WellFormedLines(lines)
    decreases |s|
  {
    if s == [] then []
    else
      var n := FirstLineLength(s);
      var rest := ReadLines(s[n..]);
      assert s[..n] + s[n..] == s;
      assert ([s[..n]] + rest)[1..] == rest;
      ConsWellFormedLines(s[..n], rest);
      [s[..n]] + rest
  }

  /** Lines that `readline` would return when fed their concatenation. */
  predicate WellFormedLines(lines: seq<seq<byte>>)
  {
    && (forall i :: 0 <= i < |lines| ==> ReadLine(lines[i]))
    && (forall i :: 0 <= i < |lines| - 1 ==> 0 < |lines[i]| && lines[i][|lines[i]| - 1] == NEWLINE_BYTE)
  }

  lemma ConsWellFormedLines(l: seq<byte>, rest: seq<seq<byte>>)
    requires ReadLine(l) && WellFormedLines(rest)
    requires rest != [] ==> l[|l| - 1] == NEWLINE_BYTE
    ensures WellFormedLines([l] + rest)
  {
    var lines := [l] + rest;
    assert forall i :: 1 <= i < |lines| ==> lines[i] == rest[i - 1];
  }

  /** Reading lines back from their concatenation recovers them. */
  lemma {:induction false} ReadLinesFlattenRoundTrip(lines: seq<seq<byte>>)
    requires WellFormedLines(lines)
    ensures ReadLines(Flatten(lines)) == lines
  {
    if lines != [] {
      var l := lines[0];
      var s := Flatten(lines);
      assert s == l + Flatten(lines[1..]);
      assert ReadLine(l);
      if |lines| > 1 {
        assert l[|l| - 1] == NEWLINE_BYTE;
      }
      FirstLineOfConcatenation(l, Flatten(lines[1..]));
      assert s[..|l|] == l;
      assert s[|l|..] == Flatten(lines[1..]);
      assert WellFormedLines(lines[1..]) by {
        forall i | 0 <= i < |lines[1..]| ensures ReadLine(lines[1..][i]) {
          assert lines[1..][i] == lines[i + 1];
        }
      }
      ReadLinesFlattenRoundTrip(lines[1..]);
    }
  }

  lemma FirstLineOfConcatenation(l: seq<byte>, rest: seq<byte>)
    requires ReadLine(l)
    requires rest != [] ==> l[|l| - 1] == NEWLINE_BYTE
    ensures FirstLineLength(l + rest) == |l|
  {
    var s := l + rest;
    var j := IndexOf(s, NEWLINE_BYTE);
    assert forall k :: 0 <= k < |l| ==> s[k] == l[k];
    if rest != [] {
      assert s[|l| - 1] == NEWLINE_BYTE;
      assert j == |l| - 1;
    } else {
      assert s == l;
    }
  }

  /** One action of `_run_service`, in program order. */
  datatype RunStep =
    | AssignPid(pid: int)
    | Send(msg: Message)
    | AssignReturncode(rc: int)

  /** `_send_message(data, type)`: a message named after the service, in its color. */
  function ServiceMessage(e: Executor, type_: string, data: Payload, t: Time): (m: Message)
    ensures m.type_ == type_ && m.data == data && m.time == t
    ensures m.name == Some(e.Name()) && m.color == e.service.color
  {
    Message(type_, data, Some(e.Name()), t, e.service.color)
  }

  /** One `'line'` message per line read, unless the service is quiet. */
  function LineSteps(e: Executor, lines: seq<seq<byte>>, t: Time): (steps: seq<RunStep>)
    ensures |steps| == |lines|
    ensures forall i :: 0 <= i < |lines| ==> steps[i] == Send(ServiceMessage(e, LINE_TYPE, Bytes(lines[i]), t))
  {
    if lines == [] then [] else [Send(ServiceMessage(e, LINE_TYPE, Bytes(lines[0]), t))] + LineSteps(e, lines[1..], t)
  }

  /** `_run_service()` for a child that has already been spawned: record
      its pid, announce the start, forward every output line unless the
      service is quiet, announce the stop with the exit status, and only
      then record the exit status. `t` is the timestamp the messages carry. */
  function RunService(e: Executor, child: Child, t: Time): (trace: seq<RunStep>)
    ensures |trace| == 4 + (if e.service.quiet then 0 else |ReadLines(child.stdout)|)
    ensures trace[0] == AssignPid(child.pid)
    ensures trace[1] == Send(ServiceMessage(e, START_TYPE, PidInfo(child.pid), t))
    ensures trace[|trace| - 2] == Send(ServiceMessage(e, STOP_TYPE, ReturncodeInfo(child.returncode), t))
    ensures trace[|trace| - 1] == AssignReturncode(child.returncode)
  {
    RunTrace(e, child.pid, if e.service.quiet then [] else ReadLines(child.stdout), child.returncode, t)
  }

  /** The run of a child with the given pid, output lines and exit status. */
  function RunTrace(e: Executor, pid: int, lines: seq<seq<byte>>, rc: int, t: Time): (trace: seq<RunStep>)
    ensures |trace| == 4 + |lines|
    ensures trace[0] == AssignPid(pid)
    ensures trace[1] == Send(ServiceMessage(e, START_TYPE, PidInfo(pid), t))
    ensures trace[|trace| - 2] == Send(ServiceMessage(e, STOP_TYPE, ReturncodeInfo(rc), t))
    ensures trace[|trace| - 1] == AssignReturncode(rc)
  {
    [AssignPid(pid), Send(ServiceMessage(e, START_TYPE, PidInfo(pid), t))]
      + LineSteps(e, lines, t)
      + [Send(ServiceMessage(e, STOP_TYPE, ReturncodeInfo(rc), t)), AssignReturncode(rc)]
  }

  /** The executor's fields after one action of a run. */
  function ApplyStep(e: Executor, step: RunStep): Executor
  {
    match step
    case AssignPid(pid) => e.(childPid := Some(pid))
    case Send(_) => e
    case AssignReturncode(rc) => e.(returncode := Some(rc))
  }

  /** The executor's fields after the given prefix of a run. */
  function ApplySteps(e: Executor, steps: seq<RunStep>): Executor
    decreases |steps|
  {
    if steps == [] then e else ApplySteps(ApplyStep(e, steps[0]), steps[1..])
  }

  /** The messages a trace puts on the bus, in order: every one comes from
      a send step, a trace of sends only yields its messages one for one, and
      a trace without sends yields nothing. */
  function Sent(steps: seq<RunStep>): (msgs: seq<Message>)
    ensures forall i :: 0 <= i < |msgs| ==> RunStep.Send(msgs[i]) in steps
    ensures (forall i :: 0 <= i < |steps| ==> steps[i].Send?) ==>
              |msgs| == |steps| && forall i :: 0 <= i < |msgs| ==> msgs[i] == steps[i].msg
    ensures (forall i :: 0 <= i < |steps| ==> !steps[i].Send?) ==> msgs == []
  {
    if steps == [] then []
    else (if steps[0].Send? then [steps[0].msg] else []) + Sent(steps[1..])
  }

  lemma {:induction false} ApplyStepsAppend(e: Executor, a: seq<RunStep>, b: seq<RunStep>)
    ensures ApplySteps(e, a + b) == ApplySteps(ApplySteps(e, a), b)
    decreases |a|
  {
    if a != [] {
      assert (a + b)[1..] == a[1..] + b;
      ApplyStepsAppend(ApplyStep(e, a[0]), a[1..], b);
    } else {
      assert a + b == b;
    }
  }

  lemma {:induction false} SendOnlyKeepsFields(e: Executor, steps: seq<RunStep>)
    requires forall i :: 0 <= i < |steps| ==> steps[i].Send?
    ensures ApplySteps(e, steps) == e
  {
    if steps != [] {
      SendOnlyKeepsFields(e, steps[1..]);
    }
  }

  /** Between assigning the pid and assigning the exit status a run only sends. */
  lemma RunServiceSendsBetween(e: Executor, child: Child, t: Time)
    ensures var trace := RunService(e, child, t);
            forall i :: 1 <= i < |trace| - 1 ==> trace[i].Send?
  {
    var lines := if e.service.quiet then [] else ReadLines(child.stdout);
    var mid := LineSteps(e, lines, t);
    var trace := RunService(e, child, t);
    forall i | 1 <= i < |trace| - 1
      ensures trace[i].Send?
    {
      if 2 <= i < 2 + |mid| {
        assert trace[i] == mid[i - 2];
      }
    }
  }

  /** The pid is assigned before the start message is sent, and the exit
      status stays unassigned until after the stop message has been sent:
      at every point of a run before its last action the executor still
      reads as running, and only the completed run reads as stopped. */
  lemma RunServiceFieldOrder(e: Executor, child: Child, t: Time)
    requires e.returncode.None?
    ensures var trace := RunService(e, child, t);
            && (forall k :: 1 <= k < |trace| ==> ApplySteps(e, trace[..k]).childPid == Some(child.pid))
            && (forall k :: 0 <= k < |trace| ==> ApplySteps(e, trace[..k]).returncode.None?)
            && ApplySteps(e, trace) == e.(childPid := Some(child.pid), returncode := Some(child.returncode))
  {
    var trace := RunService(e, child, t);
    var n := |trace|;
    var started := e.(childPid := Some(child.pid));
    RunServiceSendsBetween(e, child, t);
    assert ApplySteps(e, trace[..1]) == started by {
      assert trace[..1] == [AssignPid(child.pid)];
      assert ApplySteps(started, []) == started;
    }
    forall k | 1 <= k < n
      ensures ApplySteps(e, trace[..k]) == started
    {
      assert trace[..k] == trace[..1] + trace[1..k];
      ApplyStepsAppend(e, trace[..1], trace[1..k]);
      SendOnlyKeepsFields(started, trace[1..k]);
    }
    assert ApplySteps(e, trace[..0]) == e;
    assert trace == trace[..n - 1] + [trace[n - 1]];
    ApplyStepsAppend(e, trace[..n - 1], [trace[n - 1]]);
    assert ApplySteps(started, [trace[n - 1]]) == started.(returncode := Some(child.returncode));
  }

  /** The start message comes first, the stop message last, and everything
      between is the service's output, which concatenates back to exactly
      what the child wrote unless the service is quiet. */
  lemma RunServiceMessages(e: Executor, child: Child, t: Time)
    ensures var msgs := Sent(RunService(e, child, t));
            var lines := if e.service.quiet then [] else ReadLines(child.stdout);
            && msgs == [ServiceMessage(e, START_TYPE, PidInfo(child.pid), t)]
                       + LineMessages(e, lines, t)
                       + [ServiceMessage(e, STOP_TYPE, ReturncodeInfo(child.returncode), t)]
            && (!e.service.quiet ==> Flatten(LineBytes(LineMessages(e, lines, t))) == child.stdout)
            && (e.service.quiet ==> |msgs| == 2)
  {
    var lines := if e.service.quiet then [] else ReadLines(child.stdout);
    RunTraceSent(e, child.pid, lines, child.returncode, t);
    LineBytesOfLineMessages(e, lines, t);
  }

  /** The messages of a run: start, one per line, stop. */
  lemma RunTraceSent(e: Executor, pid: int, lines: seq<seq<byte>>, rc: int, t: Time)
    ensures Sent(RunTrace(e, pid, lines, rc, t)) ==
              [ServiceMessage(e, START_TYPE, PidInfo(pid), t)]
              + LineMessages(e, lines, t)
              + [ServiceMessage(e, STOP_TYPE, ReturncodeInfo(rc), t)]
  {
    var startMsg := ServiceMessage(e, START_TYPE, PidInfo(pid), t);
    var stopMsg := ServiceMessage(e, STOP_TYPE, ReturncodeInfo(rc), t);
    var start := [AssignPid(pid), Send(startMsg)];
    var middle := LineSteps(e, lines, t);
    var stop := [Send(stopMsg), AssignReturncode(rc)];
    SentPair(AssignPid(pid), Send(startMsg));
    SentPair(Send(stopMsg), AssignReturncode(rc));
    SentAppend(start, middle);
    SentAppend(start + middle, stop);
    SentLineSteps(e, lines, t);
  }

  lemma SentPair(a: RunStep, b: RunStep)
    ensures Sent([a, b]) == (if a.Send? then [a.msg] else []) + (if b.Send? then [b.msg] else [])
  {
    assert [a, b][1..] == [b];
    assert [b][1..] == [];
  }

  /** The messages forwarding each line. */
  function LineMessages(e: Executor, lines: seq<seq<byte>>, t: Time): (msgs: seq<Message>)
    ensures |msgs| == |lines|
  {
    if lines == [] then [] else [ServiceMessage(e, LINE_TYPE, Bytes(lines[0]), t)] + LineMessages(e, lines[1..], t)
  }

  /** The byte payloads of a sequence of messages, skipping any other payload. */
  function LineBytes(msgs: seq<Message>): seq<seq<byte>>
  {
    if msgs == [] then []
    else (if msgs[0].data.Bytes? then [msgs[0].data.bytes] else []) + LineBytes(msgs[1..])
  }

  lemma {:induction false} SentAppend(a: seq<RunStep>, b: seq<RunStep>)
    ensures Sent(a + b) == Sent(a) + Sent(b)
  {
    if a != [] {
      assert (a + b)[1..] == a[1..] + b;
      SentAppend(a[1..], b);
    } else {
      assert a + b == b;
    }
  }

  lemma {:induction false} SentLineSteps(e: Executor, lines: seq<seq<byte>>, t: Time)
    ensures Sent(LineSteps(e, lines, t)) == LineMessages(e, lines, t)
  {
    if lines != [] {
      var steps := LineSteps(e, lines, t);
      assert steps[1..] == LineSteps(e, lines[1..], t);
      SentLineSteps(e, lines[1..], t);
    }
  }

  lemma {:induction false} LineBytesOfLineMessages(e: Executor, lines: seq<seq<byte>>, t: Time)
    ensures LineBytes(LineMessages(e, lines, t)) == lines
  {
    if lines != [] {
      LineBytesOfLineMessages(e, lines[1..], t);
      assert lines == [lines[0]] + lines[1..];
    }
  }

  /** A request to the operating-system capability. The pid is `None`
      when the executor has not started yet; the capability receives it
      unchanged. */
  datatype OsRequest = TerminatePid(pid: Option<int>) | KillPid(pid: Option<int>)

  /** `kill_pid(pid)` when forced, `terminate_pid(pid)` otherwise. */
  function SignalRequest(force: bool, pid: Option<int>): (r: OsRequest)
    ensures r.KillPid? <==> force
    ensures r.pid == pid
  {
    if force then KillPid(pid) else TerminatePid(pid)
  }

  /** The signal name a stop notice mentions. */
  function SignalName(force: bool): string
  {
    if force then "SIGKILL" else "SIGTERM"
  }

  /** A side effect of stopping executors: a message put on the bus, or a
      request to the operating system. */
  datatype Effect = Enqueue(msg: Message) | Request(req: OsRequest)

  /** The operating-system requests among some effects, in order. */
  function Requests(effects: seq<Effect>): seq<OsRequest>
  {
    if effects == [] then []
    else (if effects[0].Request? then [effects[0].req] else []) + Requests(effects[1..])
  }

  /** The messages among some effects, in order. */
  function Enqueued(effects: seq<Effect>): seq<Message>
  {
    if effects == [] then []
    else (if effects[0].Enqueue? then [effects[0].msg] else []) + Enqueued(effects[1..])
  }

  lemma {:induction false} RequestsAppend(a: seq<Effect>, b: seq<Effect>)
    ensures Requests(a + b) == Requests(a) + Requests(b)
    ensures Enqueued(a + b) == Enqueued(a) + Enqueued(b)
  {
    if a != [] {
      assert (a + b)[1..] == a[1..] + b;
      RequestsAppend(a[1..], b);
    } else {
      assert a + b == b;
    }
  }
}

=== FILE: messaging.dfy ===
/** The tagged message record of compose/messaging.py: a base `Message`
    with five subclasses that add nothing but their class. The payload is
    whatever the sender passes, so it is a type parameter here; timestamps
    are readings of an abstract clock. */
module Messaging {
  import opened Base

  type Time = nat

  /** The five subclasses of `Message`. */
  datatype Kind = Line | Start | Stop | Restart | EmptyBus

  datatype Message<D> = Message(kind: Kind, data: D, name: Option<string>, time: Time, color: Option<string>)

  /** `Kind(data, name, time, color)`: the constructor shared by every
      subclass. `clock` is the value `now()` would return at construction. */
  function Make<D>(kind: Kind, data: D, name: Option<string>, time: Option<Time>,
                   color: Option<string>, clock: Time): (m: Message<D>)
    ensures m.kind == kind
    ensures m.data == data && m.name == name && m.color == color
    ensures time.None? ==> m.time == clock
    ensures time.Some? ==> m.time == time.value
  {
    var t := if time.None? then clock else time.value;
    Message(kind, data, name, t, color)
  }

  /** `Kind(data, name)`: both optional arguments left at their defaults. */
  function MakeDefault<D>(kind: Kind, data: D, name: Option<string>, clock: Time): (m: Message<D>)
    ensures m == Make(kind, data, name, None, None, clock)
  {
    Message(kind, data, name, clock, None)
  }

  /** Without explicit arguments the color is absent and the time is the clock reading. */
  lemma DefaultsAreNoneAndNow<D>(kind: Kind, data: D, name: Option<string>, clock: Time)
    ensures MakeDefault(kind, data, name, clock).color == None
    ensures MakeDefault(kind, data, name, clock).time == clock
  {
  }

  /** An explicit time is kept whatever the clock says. */
  lemma ExplicitTimeIgnoresClock<D>(kind: Kind, data: D, name: Option<string>, t: Time,
                                    color: Option<string>, clock1: Time, clock2: Time)
    ensures Make(kind, data, name, Some(t), color, clock1) == Make(kind, data, name, Some(t), color, clock2)
  {
  }

  /** The subclasses differ only in their tag: constructing two of them from
      the same arguments yields records that agree on every other field, so
      their contents coincide exactly when the tags do. This compares field
      values; Python compares `Message` objects by identity, since the class
      defines no `__eq__`. */
  lemma SubclassesDifferOnlyByTag<D>(k1: Kind, k2: Kind, data: D, name: Option<string>,
                                     time: Option<Time>, color: Option<string>, clock: Time)
    ensures Make(k1, data, name, time, color, clock).(kind := k2) == Make(k2, data, name, time, color, clock)
    ensures Make(k1, data, name, time, color, clock) == Make(k2, data, name, time, color, clock) <==> k1 == k2
  {
  }
}

=== FILE: pools.dfy ===
/** The executor pool: `ExecutorsPool` in compose/runtime.py and `Pool` in
    compose/execution.py, whose registry and `stop_all` code is the same;
    `Executor.stop` differs only in the notice it sends. A Python dict
    keeps its keys in first-insertion order, and overwriting a key keeps
    its position, so the pool is a map together with that key order; the
    order is what `stop_all` iterates in. */
module Pools {
  import opened Base
  import opened Printing
  import opened Executors

  datatype Pool = Pool(keys: seq<string>, execs: map<string, Executor>)

  /** Keys listed once each, exactly the map's keys, and every executor
      stored under its own name. */
  ghost predicate Valid(p: Pool)
  {
    && (forall i, j :: 0 <= i < j < |p.keys| ==> p.keys[i] != p.keys[j])
    && (forall n :: n in p.execs <==> n in p.keys)
    && (forall n :: n in p.execs ==> p.execs[n].Name() == n)
  }

  function Empty(): (p: Pool)
    ensures Valid(p)
    ensures p.execs == map[] && p.keys == []
  {
    Pool([], map[])
  }

  /** `add(executor)`: keyed by the executor's name; a later executor
      replaces an earlier one of the same name in place. */
  function Add(p: Pool, e: Executor): (q: Pool)
    requires Valid(p)
    ensures Valid(q)
    ensures q.execs.Keys == p.execs.Keys + {e.Name()}
    ensures e.Name() in p.execs ==> q.keys == p.keys
    ensures e.Name() !in p.execs ==> q.keys == p.keys + [e.Name()]
  {
    var keys := if e.Name() in p.execs then p.keys else p.keys + [e.Name()];
    Pool(keys, p.execs[e.Name() := e])
  }

  /** `get(name)`. */
  function Get(p: Pool, name: string): (r: Option<Executor>)
    ensures r.Some? <==> name in p.execs
  {
    if name in p.execs then Some(p.execs[name]) else None
  }

  /** Registration is last-write-wins: the latest executor added under a
      name is the one found, and other names are unaffected. */
  lemma AddThenGet(p: Pool, e: Executor, name: string)
    requires Valid(p)
    ensures Get(Add(p, e), e.Name()) == Some(e)
    ensures name != e.Name() ==> Get(Add(p, e), name) == Get(p, name)
  {
  }

  /** A name that was never registered is not found, in any pool; in
      particular an empty pool knows no name. */
  lemma GetUnknown(p: Pool, name: string)
    requires name !in p.execs
    ensures Get(p, name) == None
    ensures Get(Empty(), name) == None
  {
  }

  /** Two executors under the same name: only the second one remains. */
  lemma AddSameNameTwice(p: Pool, e1: Executor, e2: Executor)
    requires Valid(p)
    requires e1.Name() == e2.Name()
    ensures Add(Add(p, e1), e2).execs == Add(p, e2).execs
    ensures Add(Add(p, e1), e2).keys == Add(p, e2).keys
  {
    var q := Add(p, e1);
    assert e2.Name() in q.execs;
    assert Add(q, e2).keys == q.keys;
  }

  /** `all_started()`: every executor has a child pid. */
  predicate AllStarted(p: Pool): (b: bool)
    ensures Valid(p) ==> (b <==> forall i :: 0 <= i < |p.keys| ==> p.execs[p.keys[i]].childPid.Some?)
  {
    forall n :: n in p.execs ==> p.execs[n].childPid.Some?
  }

  /** `all_stopped()`: every executor has an exit status. */
  predicate AllStopped(p: Pool): (b: bool)
    ensures Valid(p) ==> (b <==> forall i :: 0 <= i < |p.keys| ==> p.execs[p.keys[i]].returncode.Some?)
  {
    forall n :: n in p.execs ==> p.execs[n].returncode.Some?
  }

  /** `any_stopped()`: some executor has an exit status. */
  predicate AnyStopped(p: Pool): (b: bool)
    ensures Valid(p) ==> (b <==> exists i :: 0 <= i < |p.keys| && p.execs[p.keys[i]].returncode.Some?)
  {
    exists n :: n in p.execs && p.execs[n].returncode.Some?
  }

  /** `all` holds and `any` fails on an empty pool. */
  lemma EmptyPoolQueries()
    ensures AllStarted(Empty()) && AllStopped(Empty()) && !AnyStopped(Empty())
  {
  }

  /** On a non-empty pool `all_stopped` implies `any_stopped`. */
  lemma AllStoppedGivesAnyStopped(p: Pool, name: string)
    requires name in p.execs
    requires AllStopped(p)
    ensures AnyStopped(p)
  {
  }

  /** Adding an executor: the pool is all started exactly when every other
      executor is and the new one is. */
  lemma AddAllStarted(p: Pool, e: Executor)
    requires Valid(p)
    ensures AllStarted(Add(p, e)) <==>
              (forall n :: n in p.execs && n != e.Name() ==> p.execs[n].childPid.Some?) && e.childPid.Some?
  {
    var q := Add(p, e);
    assert e.Name() in q.execs;
  }

  /** Adding an executor: the pool is all stopped exactly when every other
      executor is and the new one is. */
  lemma AddAllStopped(p: Pool, e: Executor)
    requires Valid(p)
    ensures AllStopped(Add(p, e)) <==>
              (forall n :: n in p.execs && n != e.Name() ==> p.execs[n].returncode.Some?) && e.returncode.Some?
  {
    var q := Add(p, e);
    assert e.Name() in q.execs;
  }

  /** Adding an executor: some executor has stopped exactly when the new one
      has or some other one has. */
  lemma AddAnyStopped(p: Pool, e: Executor)
    requires Valid(p)
    ensures AnyStopped(Add(p, e)) <==>
              (exists n :: n in p.execs && n != e.Name() && p.execs[n].returncode.Some?) || e.returncode.Some?
  {
    var q := Add(p, e);
    assert e.Name() in q.execs;
    if AnyStopped(q) && !e.returncode.Some? {
      var n :| n in q.execs && q.execs[n].returncode.Some?;
      assert n in p.execs && n != e.Name();
    }
  }

  /** The names among `keys` whose executor has no exit status yet, in order. */
  function RunningAmong(keys: seq<string>, execs: map<string, Executor>): (names: seq<string>)
    requires forall n :: n in keys ==> n in execs
    ensures forall n :: n in names <==> n in keys && execs[n].returncode.None?
    ensures |names| <= |keys|
    ensures (forall i, j :: 0 <= i < j < |keys| ==> keys[i] != keys[j]) ==>
              forall i, j :: 0 <= i < j < |names| ==> names[i] != names[j]
  {
    if keys == [] then []
    else
      var rest := RunningAmong(keys[1..], execs);
      assert forall n :: n in keys[1..] ==> n in keys;
      if execs[keys[0]].returncode.None? then [keys[0]] + rest else rest
  }

  /** The executors `stop_all` stops: those without an exit status, in the
      order the pool iterates, each once. */
  function Running(p: Pool): (names: seq<string>)
    requires Valid(p)
    ensures forall n :: n in names <==> n in p.execs && p.execs[n].returncode.None?
    ensures forall i, j :: 0 <= i < j < |names| ==> names[i] != names[j]
  {
    RunningAmong(p.keys, p.execs)
  }

  /** Nothing is running exactly when everything has stopped. */
  lemma RunningEmptyIffAllStopped(p: Pool)
    requires Valid(p)
    ensures Running(p) == [] <==> AllStopped(p)
  {
    if Running(p) != [] {
      assert Running(p)[0] in Running(p);
    }
  }

  /** The request `stop(force)` makes for each named executor. */
  function RequestsFor(p: Pool, names: seq<string>, force: bool): (reqs: seq<OsRequest>)
    requires forall n :: n in names ==> n in p.execs
    ensures |reqs| == |names|
    ensures forall i :: 0 <= i < |names| ==> reqs[i] == SignalRequest(force, p.execs[names[i]].childPid)
  {
    if names == [] then [] else [SignalRequest(force, p.execs[names[0]].childPid)] + RequestsFor(p, names[1..], force)
  }

  // ---------------------------------------------------------------------
  // Executor.stop and stop_all

  /** The notice `stop(force)` sends before signalling. It is the one thing
      in which the two revisions of `stop` differ. */
  type Notifier = (Executor, bool) -> Message

  /** `Executor.stop(force)`: the notice on the bus, then exactly one
      request to the operating system: kill when forced, terminate otherwise. */
  function Stop(e: Executor, force: bool, notice: Notifier): (effects: seq<Effect>)
    ensures |effects| == 2
    ensures effects[0] == Enqueue(notice(e, force))
    ensures effects[1] == Request(SignalRequest(force, e.childPid))
  {
    [Enqueue(notice(e, force)), Request(SignalRequest(force, e.childPid))]
  }

  /** A stop enqueues one notice and makes exactly one request, which is a
      kill exactly when forced: never both. */
  lemma StopRequestsOnce(e: Executor, force: bool, notice: Notifier)
    ensures Requests(Stop(e, force, notice)) == [SignalRequest(force, e.childPid)]
    ensures Enqueued(Stop(e, force, notice)) == [notice(e, force)]
  {
    var eff := Stop(e, force, notice);
    assert eff[1..][1..] == [];
    assert Requests(eff[1..][1..]) == [];
    assert Enqueued(eff[1..][1..]) == [];
  }

  /** The notices `stop(force)` sends for each named executor, in order. */
  function StopNotices(p: Pool, names: seq<string>, force: bool, notice: Notifier): (ms: seq<Message>)
    requires forall n :: n in names ==> n in p.execs
    ensures |ms| == |names|
    ensures forall i :: 0 <= i < |names| ==> ms[i] == notice(p.execs[names[i]], force)
  {
    if names == [] then []
    else [notice(p.execs[names[0]], force)] + StopNotices(p, names[1..], force, notice)
  }

  /** `stop(force)` on each named executor in turn. */
  function StopEach(p: Pool, names: seq<string>, force: bool, notice: Notifier): (effects: seq<Effect>)
    requires forall n :: n in names ==> n in p.execs
    ensures Requests(effects) == RequestsFor(p, names, force)
    ensures Enqueued(effects) == StopNotices(p, names, force, notice)
  {
    if names == [] then []
    else
      var first := Stop(p.execs[names[0]], force, notice);
      var rest := StopEach(p, names[1..], force, notice);
      StopRequestsOnce(p.execs[names[0]], force, notice);
      RequestsAppend(first, rest);
      first + rest
  }

  /** `stop_all(force)`: stop every executor that has no exit status yet,
      in the order the pool iterates. */
  function StopAll(p: Pool, force: bool, notice: Notifier): (effects: seq<Effect>)
    requires Valid(p)
    ensures Requests(effects) == RequestsFor(p, Running(p), force)
    ensures Enqueued(effects) == StopNotices(p, Running(p), force, notice)
  {
    StopEach(p, Running(p), force, notice)
  }

  /** `stop_all(force)` signals exactly the executors without an exit status,
      once each, all with the same signal, and leaves the others alone. */
  lemma StopAllTargetsRunning(p: Pool, force: bool, notice: Notifier)
    requires Valid(p)
    ensures var reqs := Requests(StopAll(p, force, notice));
            && |reqs| == |Running(p)|
            && (forall i :: 0 <= i < |reqs| ==> reqs[i].KillPid? == force)
            && (forall n :: n in p.execs && p.execs[n].returncode.None? ==>
                  exists i :: 0 <= i < |reqs| && reqs[i] == SignalRequest(force, p.execs[n].childPid))
  {
    var names := Running(p);
    var reqs := RequestsFor(p, names, force);
    assert Requests(StopAll(p, force, notice)) == reqs;
    forall n | n in p.execs && p.execs[n].returncode.None?
      ensures exists i :: 0 <= i < |reqs| && reqs[i] == SignalRequest(force, p.execs[n].childPid)
    {
      var i :| 0 <= i < |names| && names[i] == n;
      assert reqs[i] == SignalRequest(force, p.execs[n].childPid);
    }
  }

  /** Each notice `stop_all` sends is the notice of an executor without an
      exit status. */
  lemma StopAllNoticesFromRunning(p: Pool, force: bool, notice: Notifier)
    requires Valid(p)
    ensures var ms := Enqueued(StopAll(p, force, notice));
            forall i :: 0 <= i < |ms| ==>
              exists n :: n in p.execs && p.execs[n].returncode.None? && ms[i] == notice(p.execs[n], force)
  {
    var names := Running(p);
    var ms := StopNotices(p, names, force, notice);
    assert Enqueued(StopAll(p, force, notice)) == ms;
    forall i | 0 <= i < |ms|
      ensures exists n :: n in p.execs && p.execs[n].returncode.None? && ms[i] == notice(p.execs[n], force)
    {
      assert names[i] in names;
      assert ms[i] == notice(p.execs[names[i]], force);
    }
  }

  /** Once every executor has an exit status, `stop_all` does nothing. */
  lemma StopAllAfterAllStopped(p: Pool, force: bool, notice: Notifier)
    requires Valid(p)
    requires AllStopped(p)
    ensures StopAll(p, force, notice) == []
  {
    RunningEmptyIffAllStopped(p);
  }
}

=== FILE: printing.dfy ===
/** compose/printing.py: the `Message` record the runtime actually puts on
    its bus (its kind is a free-form `type` string), and the `Printer` facade
    that turns one output message into one writer call per line.

    The writers themselves, `strftime` and UTF-8 decoding are outside the
    model: the time formatter and the decoder are parameters, and the result
    of `Write` is the sequence of calls the writer receives. */
module Printing {
  import opened Base

  type Time = nat

  /** The payloads the runtime sends: text, raw bytes read from a child, and
      the two one-entry dictionaries `{'pid': …}` and `{'returncode': …}`. */
  datatype Payload =
    | Text(text: string)
    | Bytes(bytes: seq<byte>)
    | PidInfo(pid: int)
    | ReturncodeInfo(returncode: int)

  datatype Message = Message(type_: string, data: Payload, name: Option<string>, time: Time, color: Option<string>)

  /** The printer's configuration; the writer it wraps is left out. */
  datatype Printer = Printer(timeFormat: string, width: nat, usePrefix: bool)

  /** One `writer.write(text, color=…)` call. */
  datatype WriterCall = WriterCall(text: string, color: Option<string>)

  datatype PrintError =
    | RuntimeError(reason: string)
    /** `splitlines` called on a dictionary payload. */
    | AttributeError

  const DEFAULT_TIME_FORMAT := "%H:%M:%S"
  const DEFAULT_USE_PREFIX := true
  const OUTPUT_TYPE := "output"
  const WRONG_TYPE_REASON := "Printer can only process messages of type \"line\""

  /** `Printer(writer, time_format, use_prefix)`; a `None` `usePrefix`
      stands for the argument left out, which defaults to `True`. */
  function NewPrinter(timeFormat: Option<string>, usePrefix: Option<bool>): (p: Printer)
    ensures timeFormat.None? ==> p.timeFormat == "%H:%M:%S"
    ensures timeFormat.Some? ==> p.timeFormat == timeFormat.value
    ensures p.width == 0
    ensures usePrefix.None? ==> p.usePrefix
    ensures usePrefix.Some? ==> p.usePrefix == usePrefix.value
  {
    Printer(if timeFormat.None? then DEFAULT_TIME_FORMAT else timeFormat.value, 0,
            if usePrefix.None? then DEFAULT_USE_PREFIX else usePrefix.value)
  }

  /** `s.ljust(width)`: right-pad with spaces up to `width`; a longer string is kept. */
  function Ljust(s: string, width: nat): (r: string)
    ensures |r| == Max(|s|, width)
    ensures r[..|s|] == s
    ensures forall i :: |s| <= i < |r| ==> r[i] == ' '
  {
    if |s| >= width then s else s + seq(width - |s|, _ => ' ')
  }

  /** The name column: a missing name reads as empty, it is padded to the
      printer's width, and a separating space follows unless the padded name
      is empty. */
  function NameColumn(name: Option<string>, width: nat): (r: string)
    ensures var n := if name.None? then "" else name.value;
            && (|r| == 0 <==> (|n| == 0 && width == 0))
            && (|r| > 0 ==> |r| == Max(|n|, width) + 1 && r[|r| - 1] == ' ')
            && r[..|n|] == n
            && forall i :: |n| <= i < |r| ==> r[i] == ' '
  {
    var n := if name.None? then "" else name.value;
    var padded := Ljust(n, width);
    if padded != [] then padded + " " else padded
  }

  /** The prefix put in front of every line: `'{time} {name}| '` when the
      printer uses prefixes, nothing otherwise. */
  function Prefix(p: Printer, m: Message, strftime: (Time, string) -> string): (r: string)
    ensures !p.usePrefix ==> r == ""
    ensures p.usePrefix ==>
              var t := strftime(m.time, p.timeFormat);
              && |r| == |t| + 1 + |NameColumn(m.name, p.width)| + 2
              && r[..|t|] == t
              && r[|t|] == ' '
              && r[|t| + 1..|r| - 2] == NameColumn(m.name, p.width)
              && r[|r| - 2..] == "| "
  {
    if p.usePrefix then strftime(m.time, p.timeFormat) + " " + NameColumn(m.name, p.width) + "| " else ""
  }

  /** A segment of text before a line feed, with a carriage return that
      directly precedes the line feed removed. */
  function StripCarriageReturn(s: string): (r: string)
  {
    if |s| > 0 && s[|s| - 1] == '\r' then s[..|s| - 1] else s
  }

  /** `str.splitlines()` restricted to the `\n` and `\r\n` line boundaries:
      the lines without their terminators, and no empty last line for a
      trailing terminator. */
  function SplitLines(s: string): (lines: seq<string>)
    ensures forall i :: 0 <= i < |lines| ==> '\n' !in lines[i]
    ensures s == [] <==> lines == []
    decreases |s|
  {
    if s == [] then []
    else
      var i := IndexOf(s, '\n');
      if i == |s| then [s] else [StripCarriageReturn(s[..i])] + SplitLines(s[i + 1..])
  }

  /** Lines that `JoinLines` and `SplitLines` round-trip: no line feed
      inside and no carriage return at the end. */
  predicate PlainLine(l: string)
  {
    '\n' !in l && (|l| == 0 || l[|l| - 1] != '\r')
  }

  /** Every line followed by a line feed: the text a child writes when it
      prints `lines` one by one. */
  function JoinLines(lines: seq<string>): string
  {
    if lines == [] then "" else lines[0] + "\n" + JoinLines(lines[1..])
  }

  lemma {:induction false} SplitJoinRoundTrip(lines: seq<string>)
    requires forall i :: 0 <= i < |lines| ==> PlainLine(lines[i])
    ensures SplitLines(JoinLines(lines)) == lines
  {
    if lines != [] {
      var l, rest := lines[0], JoinLines(lines[1..]);
      assert PlainLine(l);
      SplitAtFirstLineFeed(l, rest);
      SplitJoinRoundTrip(lines[1..]);
    }
  }

  /** Text without a line feed is a single line: the last, unterminated
      line of a child's output is kept whole. */
  lemma SplitUnterminated(s: string)
    requires '\n' !in s && s != ""
    ensures SplitLines(s) == [s]
  {
    assert IndexOf(s, '\n') == |s|;
  }

  /** Terminated lines followed by a final unterminated one split back into
      all of them. */
  lemma {:induction false} SplitJoinUnterminatedRoundTrip(lines: seq<string>, last: string)
    requires forall i :: 0 <= i < |lines| ==> PlainLine(lines[i])
    requires '\n' !in last && last != ""
    ensures SplitLines(JoinLines(lines) + last) == lines + [last]
  {
    if lines == [] {
      assert JoinLines(lines) + last == last;
      SplitUnterminated(last);
    } else {
      var l, tail := lines[0], JoinLines(lines[1..]);
      calc {
        SplitLines(JoinLines(lines) + last);
        SplitLines(l + "\n" + tail + last);
        { SplitJoinedStep(l, tail, last); }
        [l] + SplitLines(tail + last);
        { SplitJoinUnterminatedRoundTrip(lines[1..], last); }
        [l] + (lines[1..] + [last]);
        { assert lines == [l] + lines[1..]; }
        lines + [last];
      }
    }
  }

  /** One step of the above: the first terminated line comes off. */
  lemma SplitJoinedStep(l: string, tail: string, last: string)
    requires PlainLine(l)
    ensures SplitLines(l + "\n" + tail + last) == [l] + SplitLines(tail + last)
  {
    assert l + "\n" + tail + last == l + "\n" + (tail + last);
    SplitAtFirstLineFeed(l, tail + last);
  }

  /** A line ended by `\r\n` is split off without its carriage return. */
  lemma SplitCrLf(l: string, rest: string)
    requires PlainLine(l)
    ensures SplitLines(l + "\r\n" + rest) == [l] + SplitLines(rest)
  {
    var s := l + "\r\n" + rest;
    assert s[|l| + 1] == '\n';
    assert forall j :: 0 <= j < |l| ==> s[j] == l[j];
    assert s[|l|] == '\r';
    assert IndexOf(s, '\n') == |l| + 1;
    assert s[..|l| + 1] == l + "\r";
    assert StripCarriageReturn(l + "\r") == l;
    assert s[|l| + 2..] == rest;
  }

  /** Splitting a plain line followed by a line feed and more text peels off exactly that line. */
  lemma SplitAtFirstLineFeed(l: string, rest: string)
    requires PlainLine(l)
    ensures SplitLines(l + "\n" + rest) == [l] + SplitLines(rest)
  {
    var s := l + "\n" + rest;
    assert s[|l|] == '\n';
    assert forall j :: 0 <= j < |l| ==> s[j] == l[j];
    assert IndexOf(s, '\n') == |l|;
    assert s[..|l|] == l;
    assert s[|l| + 1..] == rest;
  }

  /** The text of a payload, or `None` for the dictionaries that have no `splitlines`. */
  function PayloadText(data: Payload, decode: seq<byte> -> string): (r: Option<string>)
    ensures data.Text? ==> r == Some(data.text)
    ensures data.Bytes? ==> r == Some(decode(data.bytes))
    ensures r.None? <==> (data.PidInfo? || data.ReturncodeInfo?)
  {
    match data
    case Text(t) => Some(t)
    case Bytes(b) => Some(decode(b))
    case PidInfo(_) => None
    case ReturncodeInfo(_) => None
  }

  /** The lines the writer receives for `text`: its lines, or the single
      empty line when it has none. */
  function OutputLines(text: string): (lines: seq<string>)
    ensures |lines| >= 1
    ensures forall i :: 0 <= i < |lines| ==> '\n' !in lines[i]
    ensures text == [] ==> lines == [""]
  {
    var split := SplitLines(text);
    if split == [] then [""] else split
  }

  /** One writer call per line, each the prefix followed by the line. */
  function LineCalls(prefix: string, lines: seq<string>, color: Option<string>): (calls: seq<WriterCall>)
    ensures |calls| == |lines|
    ensures forall i :: 0 <= i < |lines| ==> calls[i] == WriterCall(prefix + lines[i], color)
  {
    if lines == [] then [] else [WriterCall(prefix + lines[0], color)] + LineCalls(prefix, lines[1..], color)
  }

  /** `Printer.write(message)`: rejects every message whose type is not
      `'output'`; otherwise one writer call per line of the data (one call
      with the empty line when there are none), each the prefix followed by
      the line, in the message's color. */
  function Write(p: Printer, m: Message, strftime: (Time, string) -> string,
                 decode: seq<byte> -> string): (r: Result<seq<WriterCall>, PrintError>)
    ensures m.type_ != OUTPUT_TYPE <==> r == Failure(RuntimeError(WRONG_TYPE_REASON))
    ensures m.type_ == OUTPUT_TYPE && (m.data.PidInfo? || m.data.ReturncodeInfo?) ==> r == Failure(AttributeError)
    ensures r.Success? ==>
              var prefix := Prefix(p, m, strftime);
              && |r.value| >= 1
              && forall i :: 0 <= i < |r.value| ==>
                   && r.value[i].color == m.color
                   && |prefix| <= |r.value[i].text|
                   && r.value[i].text[..|prefix|] == prefix
                   && '\n' !in r.value[i].text[|prefix|..]
  {
    if m.type_ != OUTPUT_TYPE then Failure(RuntimeError(WRONG_TYPE_REASON))
    else
      match PayloadText(m.data, decode)
      case None => Failure(AttributeError)
      case Some(text) =>
        var prefix := Prefix(p, m, strftime);
        var lines := OutputLines(text);
        var calls := LineCalls(prefix, lines, m.color);
        assert forall i :: 0 <= i < |calls| ==> calls[i].text[|prefix|..] == lines[i];
        Success(calls)
  }

  /** For an output message with text, the writer calls are the prefixed lines. */
  lemma WriteOutputText(p: Printer, m: Message, strftime: (Time, string) -> string,
                        decode: seq<byte> -> string, text: string)
    requires m.type_ == OUTPUT_TYPE
    requires PayloadText(m.data, decode) == Some(text)
    ensures Write(p, m, strftime, decode) == Success(LineCalls(Prefix(p, m, strftime), OutputLines(text), m.color))
  {
  }

  /** Output written as whole lines reaches the writer line by line: one
      call per line, in order, each the prefix followed by exactly that line. */
  lemma WriteEmitsEachLine(p: Printer, m: Message, strftime: (Time, string) -> string,
                           decode: seq<byte> -> string, lines: seq<string>)
    requires m.type_ == OUTPUT_TYPE
    requires m.data == Text(JoinLines(lines))
    requires |lines| >= 1
    requires forall i :: 0 <= i < |lines| ==> PlainLine(lines[i])
    ensures Write(p, m, strftime, decode).Success?
    ensures |Write(p, m, strftime, decode).value| == |lines|
    ensures forall i :: 0 <= i < |lines| ==>
              Write(p, m, strftime, decode).value[i] == WriterCall(Prefix(p, m, strftime) + lines[i], m.color)
  {
    SplitJoinRoundTrip(lines);
    WriteLines(p, m, strftime, decode, JoinLines(lines), lines);
  }

  /** The writer calls for text whose lines are already known. */
  lemma WriteLines(p: Printer, m: Message, strftime: (Time, string) -> string,
                   decode: seq<byte> -> string, text: string, lines: seq<string>)
    requires m.type_ == OUTPUT_TYPE
    requires m.data == Text(text)
    requires SplitLines(text) == lines
    requires |lines| >= 1
    ensures Write(p, m, strftime, decode).Success?
    ensures |Write(p, m, strftime, decode).value| == |lines|
    ensures forall i :: 0 <= i < |lines| ==>
              Write(p, m, strftime, decode).value[i] == WriterCall(Prefix(p, m, strftime) + lines[i], m.color)
  {
    var prefix := Prefix(p, m, strftime);
    WriteOutputText(p, m, strftime, decode, text);
    var calls := LineCalls(prefix, lines, m.color);
    assert Write(p, m, strftime, decode) == Success(calls);
  }

  /** Empty data still produces exactly one writer call: the bare prefix. */
  lemma WriteEmptyData(p: Printer, m: Message, strftime: (Time, string) -> string, decode: seq<byte> -> string)
    requires m.type_ == OUTPUT_TYPE
    requires m.data == Text("")
    ensures Write(p, m, strftime, decode) == Success([WriterCall(Prefix(p, m, strftime), m.color)])
  {
    var prefix := Prefix(p, m, strftime);
    WriteOutputText(p, m, strftime, decode, "");
    var calls := LineCalls(prefix, [""], m.color);
    assert |calls| == 1 && calls[0] == WriterCall(prefix + "", m.color);
    assert prefix + "" == prefix;
    assert calls == [WriterCall(prefix, m.color)];
  }

  /** Without prefixes the writer receives the bare lines of the text. */
  lemma WriteWithoutPrefix(p: Printer, m: Message, strftime: (Time, string) -> string,
                           decode: seq<byte> -> string, text: string)
    requires !p.usePrefix
    requires m.type_ == OUTPUT_TYPE
    requires m.data == Text(text)
    ensures Write(p, m, strftime, decode).Success?
    ensures |Write(p, m, strftime, decode).value| == |OutputLines(text)|
    ensures forall i :: 0 <= i < |OutputLines(text)| ==> Write(p, m, strftime, decode).value[i].text == OutputLines(text)[i]
  {
    var lines := OutputLines(text);
    var prefix := Prefix(p, m, strftime);
    assert prefix == "";
    WriteOutputText(p, m, strftime, decode, text);
    var calls := LineCalls(prefix, lines, m.color);
    forall i | 0 <= i < |lines|
      ensures calls[i].text == lines[i]
    {
      assert "" + lines[i] == lines[i];
    }
  }

  /** A byte payload is written exactly as its decoded text would be. */
  lemma WriteDecodesBytes(p: Printer, m: Message, strftime: (Time, string) -> string,
                          decode: seq<byte> -> string, b: seq<byte>)
    requires m.data == Bytes(b)
    ensures Write(p, m, strftime, decode) == Write(p, m.(data := Text(decode(b))), strftime, decode)
  {
  }

  /** With prefixes every written line starts with the formatted time, a
      space, the padded name column and the `'| '` separator. */
  lemma PrefixShape(p: Printer, m: Message, strftime: (Time, string) -> string)
    requires p.usePrefix
    ensures var t := strftime(m.time, p.timeFormat);
            var name := if m.name.None? then "" else m.name.value;
            var r := Prefix(p, m, strftime);
            && r[..|t|] == t
            && r[|t|] == ' '
            && r[|t| + 1..|t| + 1 + |name|] == name
            && (forall i :: |t| + 1 + |name| <= i < |r| - 2 ==> r[i] == ' ')
            && r[|r| - 2..] == "| "
            && |r| == |t| + 3 + (if |name| == 0 && p.width == 0 then 0 else Max(|name|, p.width) + 1)
  {
  }

  /** `adjust_width(service)`: widen the name column to fit `name`. */
  function AdjustWidth(p: Printer, name: string): (q: Printer)
    ensures q.width >= p.width && q.width >= |name|
    ensures q.width == p.width || q.width == |name|
    ensures q.timeFormat == p.timeFormat && q.usePrefix == p.usePrefix
  {
    p.(width := Max(p.width, |name|))
  }

  /** Widening twice with the same name is the same as widening once. */
  lemma AdjustWidthIdempotent(p: Printer, name: string)
    ensures AdjustWidth(AdjustWidth(p, name), name) == AdjustWidth(p, name)
  {
  }

  /** The order in which services are registered does not matter. */
  lemma AdjustWidthCommutes(p: Printer, a: string, b: string)
    ensures AdjustWidth(AdjustWidth(p, a), b) == AdjustWidth(AdjustWidth(p, b), a)
  {
  }
}

=== FILE: readiness.dfy ===
/** compose/readiness.py: the retry counter of a service and the readiness
    wrapper that builds it from an optional configuration dictionary. */
module Readiness {
  import opened Base

  /** The attempt bound; Python stores the unbounded case as `float('inf')`. */
  datatype Bound = Finite(n: int) | Unbounded

  /** `RetryLogic`: the bound, the wait in seconds and the attempts done so far. */
  datatype RetryLogic = RetryLogic(attempts: Bound, wait: int, done: nat)

  /** The `retry` sub-dictionary; `None` stands for a missing key or an explicit null. */
  datatype RetryConfig = RetryConfig(attempts: Option<int>, wait: Option<int>)

  /** The readiness dictionary; `retry == None` stands for a missing `retry` key. */
  datatype ReadinessConfig = ReadinessConfig(retry: Option<RetryConfig>)

  const DEFAULT_WAIT := 5

  /** `RetryLogic(attempts, wait)`. */
  function NewRetryLogic(attempts: Option<int>, wait: Option<int>): (r: RetryLogic)
    ensures r.done == 0
    ensures attempts.None? <==> r.attempts.Unbounded?
    ensures attempts.Some? ==> r.attempts == Finite(attempts.value)
    ensures wait.None? ==> r.wait == 5
    ensures wait.Some? ==> r.wait == wait.value
  {
    RetryLogic(
      if attempts.None? then Unbounded else Finite(attempts.value),
      if wait.None? then DEFAULT_WAIT else wait.value,
      0)
  }

  /** `Readiness(readiness_config).retry`: a missing configuration and a
      missing `retry` key both read as an empty dictionary. */
  function NewReadiness(config: Option<ReadinessConfig>): (r: RetryLogic)
    ensures config.None? ==> r == NewRetryLogic(None, None)
    ensures config.Some? && config.value.retry.None? ==> r == NewRetryLogic(None, None)
    ensures config.Some? && config.value.retry.Some? ==>
              r == NewRetryLogic(config.value.retry.value.attempts, config.value.retry.value.wait)
  {
    var conf := if config.None? then ReadinessConfig(None) else config.value;
    var retry := if conf.retry.None? then RetryConfig(None, None) else conf.retry.value;
    NewRetryLogic(retry.attempts, retry.wait)
  }

  /** None, `{}` and `{'retry': {}}` all give an unbounded counter waiting 5 seconds. */
  lemma EmptyConfigurationsGiveDefaults()
    ensures NewReadiness(None) == RetryLogic(Unbounded, 5, 0)
    ensures NewReadiness(Some(ReadinessConfig(None))) == RetryLogic(Unbounded, 5, 0)
    ensures NewReadiness(Some(ReadinessConfig(Some(RetryConfig(None, None))))) == RetryLogic(Unbounded, 5, 0)
  {
  }

  /** `done < attempts`, with every count below infinity. */
  predicate Below(done: nat, bound: Bound)
  {
    match bound
    case Unbounded => true
    case Finite(n) => done < n
  }

  /** The outcome of one `do_retry()` call: its answer and the counter after it. */
  datatype RetryStep = RetryStep(retried: bool, next: RetryLogic)

  /** `do_retry()`: while attempts remain, use one and answer yes; otherwise
      answer no and leave the counter alone. */
  function DoRetry(r: RetryLogic): (s: RetryStep)
    ensures s.retried <==> Below(r.done, r.attempts)
    ensures s.retried ==> s.next == r.(done := r.done + 1)
    ensures !s.retried ==> s.next == r
  {
    if Below(r.done, r.attempts) then RetryStep(true, r.(done := r.done + 1)) else RetryStep(false, r)
  }

  /** The counter never passes a finite bound that is not negative. */
  ghost predicate Valid(r: RetryLogic)
  {
    r.attempts.Finite? ==> r.done <= Max(r.attempts.n, 0)
  }

  lemma NewRetryLogicValid(attempts: Option<int>, wait: Option<int>)
    ensures Valid(NewRetryLogic(attempts, wait))
  {
  }

  lemma DoRetryPreservesValid(r: RetryLogic)
    requires Valid(r)
    ensures Valid(DoRetry(r).next)
    ensures DoRetry(r).next.attempts == r.attempts && DoRetry(r).next.wait == r.wait
  {
  }

  /** The answers of `k` consecutive `do_retry()` calls. */
  function Answers(r: RetryLogic, k: nat): (answers: seq<bool>)
    ensures |answers| == k
    decreases k
  {
    if k == 0 then [] else [DoRetry(r).retried] + Answers(DoRetry(r).next, k - 1)
  }

  /** The counter after `k` consecutive `do_retry()` calls. */
  function After(r: RetryLogic, k: nat): RetryLogic
    decreases k
  {
    if k == 0 then r else After(DoRetry(r).next, k - 1)
  }

  /** Starting from `done` attempts under a finite bound `n`, call number
      `i` answers yes exactly when `done + i < n`. */
  lemma {:induction false} FiniteAnswersFrom(r: RetryLogic, k: nat)
    requires r.attempts.Finite?
    ensures forall i :: 0 <= i < k ==> Answers(r, k)[i] == (r.done + i < r.attempts.n)
    decreases k
  {
    if k > 0 {
      var s := DoRetry(r);
      FiniteAnswersFrom(s.next, k - 1);
      if !s.retried {
        NoMoreAnswers(r, k);
      }
    }
  }

  /** Once a finite counter says no, it says no forever. */
  lemma {:induction false} NoMoreAnswers(r: RetryLogic, k: nat)
    requires r.attempts.Finite? && r.done >= r.attempts.n
    ensures forall i :: 0 <= i < k ==> !Answers(r, k)[i]
    decreases k
  {
    if k > 0 {
      NoMoreAnswers(DoRetry(r).next, k - 1);
    }
  }

  /** With a finite bound `N`, exactly the first `N` calls on a fresh counter answer yes. */
  lemma FirstNCallsRetry(n: int, wait: Option<int>, k: nat)
    ensures forall i :: 0 <= i < k ==> Answers(NewRetryLogic(Some(n), wait), k)[i] == (i < n)
  {
    FiniteAnswersFrom(NewRetryLogic(Some(n), wait), k);
  }

  /** Without a bound every call answers yes. */
  lemma {:induction false} UnboundedAlwaysRetries(r: RetryLogic, k: nat)
    requires r.attempts.Unbounded?
    ensures forall i :: 0 <= i < k ==> Answers(r, k)[i]
    ensures After(r, k).done == r.done + k
    decreases k
  {
    if k > 0 {
      UnboundedAlwaysRetries(DoRetry(r).next, k - 1);
    }
  }

  /** The counter counts exactly the yes answers and stays within a finite bound. */
  lemma {:induction false} CounterCountsRetries(r: RetryLogic, k: nat)
    requires Valid(r)
    ensures Valid(After(r, k))
    ensures After(r, k).done == r.done + CountTrue(Answers(r, k))
    decreases k
  {
    if k > 0 {
      DoRetryPreservesValid(r);
      CounterCountsRetries(DoRetry(r).next, k - 1);
    }
  }

  function CountTrue(bs: seq<bool>): nat
  {
    if bs == [] then 0 else (if bs[0] then 1 else 0) + CountTrue(bs[1..])
  }
}

=== FILE: runtime.dfy ===
/** compose/runtime.py, the current revision of the runtime: the event bus,
    `Executor.stop`, `ExecutorsPool.stop_all` and the scheduler's loop.

    Threads, the queue timeout, signal installation and the wall clock are
    replaced by explicit inputs. One loop iteration is a pure function of
    the scheduler state, the current time and a snapshot of the pool (the
    executors' threads write their pids and exit statuses concurrently). A
    signal is a separate transition. Everything the loop does to the
    outside is recorded in the state: messages put back on the bus,
    messages handed to the printer, and requests to the operating system.

    Every message this revision builds omits `time`, so all of them carry
    the default argument of `printing.Message`, fixed once when the module
    was loaded; the state keeps that value as `stamp`. */
module Runtime {
  import opened Base
  import opened Printing
  import opened Executors
  import opened Pools
  import opened Supervision

  const SYSTEM_NAME := "system"
  const NO_MESSAGES_TYPE := "no_messages"
  const NO_MESSAGES_TEXT := "No messages in queue"
  const DEFAULT_KILL_WAIT: nat := 5

  // ---------------------------------------------------------------------
  // EventBus

  datatype EventBus = EventBus(queue: seq<Message>)

  /** `EventBus()`: an empty queue. */
  function NewEventBus(): (b: EventBus)
    ensures b.queue == []
  {
    EventBus([])
  }

  /** `send(message)`: appended behind everything sent before. */
  function Send(b: EventBus, m: Message): (b': EventBus)
    ensures b'.queue == b.queue + [m]
  {
    EventBus(b.queue + [m])
  }

  /** The sentinel `receive` returns instead of failing on an empty bus. */
  function NoMessages(stamp: Time): (m: Message)
    ensures m.type_ == "no_messages" && m.name == Some("system")
    ensures m.data == Text("No messages in queue") && m.color == None
  {
    Message(NO_MESSAGES_TYPE, Text(NO_MESSAGES_TEXT), Some(SYSTEM_NAME), stamp, None)
  }

  datatype Received = Received(msg: Message, bus: EventBus)

  /** `receive(timeout)`: the oldest message, or the sentinel when the bus
      is empty (a timeout; the bus is then left as it was). */
  function Receive(b: EventBus, stamp: Time): (r: Received)
    ensures b.queue == [] ==> r.msg == NoMessages(stamp) && r.bus == b
    ensures b.queue != [] ==> [r.msg] + r.bus.queue == b.queue
  {
    if b.queue == [] then Received(NoMessages(stamp), b)
    else Received(b.queue[0], EventBus(b.queue[1..]))
  }

  /** A `'line'` message under the reserved `system` name, without color. */
  function SystemLine(text: string, stamp: Time): (m: Message)
    ensures m.type_ == "line" && m.name == Some("system") && m.color == None
    ensures m.data == Text(text)
  {
    Message(LINE_TYPE, Text(text), Some(SYSTEM_NAME), stamp, None)
  }

  /** `send_system(text)`. */
  function SendSystem(b: EventBus, text: string, stamp: Time): (b': EventBus)
    ensures b'.queue == b.queue + [SystemLine(text, stamp)]
  {
    Send(b, SystemLine(text, stamp))
  }

  /** Several sends in a row. */
  function SendAll(b: EventBus, ms: seq<Message>): (b': EventBus)
    ensures b'.queue == b.queue + ms
    decreases |ms|
  {
    if ms == [] then b
    else
      var b' := SendAll(Send(b, ms[0]), ms[1..]);
      assert b.queue + [ms[0]] + ms[1..] == b.queue + ms;
      b'
  }

  /** The messages `k` consecutive receives return. */
  function ReceiveMany(b: EventBus, k: nat, stamp: Time): (ms: seq<Message>)
    ensures |ms| == k
    decreases k
  {
    if k == 0 then [] else var r := Receive(b, stamp); [r.msg] + ReceiveMany(r.bus, k - 1, stamp)
  }

  /** The bus after `k` consecutive receives. */
  function AfterReceives(b: EventBus, k: nat, stamp: Time): EventBus
    decreases k
  {
    if k == 0 then b else AfterReceives(Receive(b, stamp).bus, k - 1, stamp)
  }

  lemma {:induction false} ReceiveManyTakesPrefix(b: EventBus, k: nat, stamp: Time)
    requires k <= |b.queue|
    ensures ReceiveMany(b, k, stamp) == b.queue[..k]
    ensures AfterReceives(b, k, stamp).queue == b.queue[k..]
    decreases k
  {
    if k > 0 {
      var r := Receive(b, stamp);
      assert r.bus.queue == b.queue[1..];
      ReceiveManyTakesPrefix(r.bus, k - 1, stamp);
      assert b.queue[..k] == [b.queue[0]] + b.queue[1..][..k - 1];
      assert b.queue[k..] == b.queue[1..][k - 1..];
    }
  }

  /** The bus is first-in first-out: messages sent to an empty bus come
      back in the order they were sent, and the next receive gets the
      sentinel and leaves the bus empty. */
  lemma BusIsFifo(ms: seq<Message>, stamp: Time)
    ensures ReceiveMany(SendAll(NewEventBus(), ms), |ms|, stamp) == ms
    ensures var drained := AfterReceives(SendAll(NewEventBus(), ms), |ms|, stamp);
            && Receive(drained, stamp).msg == NoMessages(stamp)
            && Receive(drained, stamp).bus.queue == []
  {
    var b := SendAll(NewEventBus(), ms);
    assert b.queue == ms;
    ReceiveManyTakesPrefix(b, |ms|, stamp);
    assert ms[..|ms|] == ms;
  }

  // ---------------------------------------------------------------------
  // Executor.stop and ExecutorsPool.stop_all

  /** The text of the notice `stop` puts on the bus before signalling. */
  function StopNoticeText(e: Executor, force: bool): string
  {
    "sending " + SignalName(force) + " to " + e.Name() + "(pid=" + OptionIntToString(e.childPid) + ")\n"
  }

  /** The notice itself: a system notice, not one under the service's name. */
  function StopNotice(e: Executor, force: bool, stamp: Time): (m: Message)
    ensures m.type_ == "line" && m.name == Some("system") && m.color == None
    ensures m.data == Text(StopNoticeText(e, force)) && m.time == stamp
  {
    SystemLine(StopNoticeText(e, force), stamp)
  }

  /** This revision's `stop` notices, all carrying the given stamp. */
  function StopNotifier(stamp: Time): Notifier
  {
    (e: Executor, force: bool) => StopNotice(e, force, stamp)
  }

  /** Every notice `stop_all` sends is a system notice about an executor
      without an exit status: the signal, that executor's name and pid. */
  lemma StopAllAnnouncesRunning(p: Pool, force: bool, stamp: Time)
    requires Valid(p)
    ensures var ms := Enqueued(StopAll(p, force, StopNotifier(stamp)));
            forall i :: 0 <= i < |ms| ==>
              && ms[i].type_ == "line" && ms[i].name == Some("system")
              && exists n :: n in p.execs && p.execs[n].returncode.None? &&
                   ms[i].data == Text(StopNoticeText(p.execs[n], force))
  {
    StopAllNoticesFromRunning(p, force, StopNotifier(stamp));
  }

  // ---------------------------------------------------------------------
  // Scheduler

  /** The scheduler's fields and the loop's locals, plus what it has done
      to the outside: the bus it shares with the executors, the messages it
      handed to the printer and the requests it made to the OS. */
  datatype Sched = Sched(
    killWait: nat,
    stamp: Time,
    returncode: Option<int>,
    terminating: bool,
    doExit: bool,
    exitStart: Option<Time>,
    bus: EventBus,
    printed: seq<Message>,
    requests: seq<OsRequest>)

  /** `Scheduler(printer, os, kill_wait=5)` followed by entering `start()`. */
  function NewScheduler(killWait: Option<nat>, stamp: Time): (s: Sched)
    ensures killWait.None? ==> s.killWait == 5
    ensures killWait.Some? ==> s.killWait == killWait.value
    ensures s.returncode.None? && !s.terminating && !s.doExit && s.exitStart.None?
    ensures s.bus.queue == [] && s.printed == [] && s.requests == []
  {
    Sched(if killWait.None? then DEFAULT_KILL_WAIT else killWait.value, stamp, None, false, false, None, NewEventBus(), [], [])
  }

  datatype Registered = Registered(pool: Pool, printer: Printer)

  /** `add_service(service)`: a fresh executor in the pool, and the printer
      widened to the service's name. */
  function AddService(pool: Pool, printer: Printer, service: Service): (r: Registered)
    requires Valid(pool)
    ensures Valid(r.pool)
    ensures Get(r.pool, service.name) == Some(NewExecutor(service))
    ensures forall n :: n != service.name ==> Get(r.pool, n) == Get(pool, n)
    ensures r.printer.width == Max(printer.width, |service.name|)
  {
    var pool' := Add(pool, NewExecutor(service));
    AddThenGet(pool, NewExecutor(service), service.name);
    Registered(pool', AdjustWidth(printer, service.name))
  }

  /** Carry out the effects of stopping executors. The notices and the
      requests go to two independent destinations, so performing the effects
      one by one is the same as sending the notices in order and making the
      requests in order. */
  function ApplyEffects(s: Sched, effects: seq<Effect>): Sched
  {
    s.(bus := SendAll(s.bus, Enqueued(effects)), requests := s.requests + Requests(effects))
  }

  /** `terminate()`: only the first call has an effect: it marks the
      scheduler as terminating and stops every running executor gracefully. */
  function Terminate(s: Sched, pool: Pool): (s': Sched)
    requires Valid(pool)
    ensures s'.terminating
    ensures s.terminating ==> s' == s
    ensures !s.terminating ==> s' == ApplyEffects(s.(terminating := true), StopAll(pool, false, StopNotifier(s.stamp)))
  {
    if s.terminating then s else ApplyEffects(s.(terminating := true), StopAll(pool, false, StopNotifier(s.stamp)))
  }

  /** `kill()`: stop every running executor forcefully. */
  function Kill(s: Sched, pool: Pool): (s': Sched)
    requires Valid(pool)
    ensures s'.requests == s.requests + RequestsFor(pool, Running(pool), true)
    ensures s'.bus.queue == s.bus.queue + Enqueued(StopAll(pool, true, StopNotifier(s.stamp)))
    ensures s' == s.(bus := s'.bus, requests := s'.requests)
  {
    ApplyEffects(s, StopAll(pool, true, StopNotifier(s.stamp)))
  }

  /** `terminate()` twice is `terminate()` once. */
  lemma TerminateIdempotent(s: Sched, pool: Pool)
    requires Valid(pool)
    ensures Terminate(Terminate(s, pool), pool) == Terminate(s, pool)
  {
  }

  /** The first `terminate()` requests a graceful stop of exactly the
      running executors and nothing else. */
  lemma TerminateStopsRunningGracefully(s: Sched, pool: Pool)
    requires Valid(pool)
    requires !s.terminating
    ensures var s' := Terminate(s, pool);
            && s'.requests == s.requests + RequestsFor(pool, Running(pool), false)
            && s'.returncode == s.returncode && s'.exitStart == s.exitStart && s'.doExit == s.doExit
  {
  }

  /** The handler `start()` installs for SIGINT and SIGTERM: announce the
      signal, overwrite the exit status, terminate. */
  function OnSignal(s: Sched, sig: Signal, pool: Pool): (s': Sched)
    requires Valid(pool)
    ensures s'.returncode == Some(SignalExitCode(sig))
    ensures s'.terminating
    ensures s'.exitStart == s.exitStart && s'.doExit == s.doExit && s'.printed == s.printed
    ensures s'.bus.queue == s.bus.queue + [SystemLine(SignalLabel(sig) + " received\n", s.stamp)]
              + (if s.terminating then [] else Enqueued(StopAll(pool, false, StopNotifier(s.stamp))))
    ensures s.terminating ==> s'.requests == s.requests
    ensures !s.terminating ==> s'.requests == s.requests + RequestsFor(pool, Running(pool), false)
  {
    var s1 := s.(bus := SendSystem(s.bus, SignalLabel(sig) + " received\n", s.stamp));
    Terminate(s1.(returncode := Some(SignalExitCode(sig))), pool)
  }

  /** SIGINT yields 130 and SIGTERM 143, whatever was recorded before. */
  lemma SignalExitCodes(s: Sched, pool: Pool)
    requires Valid(pool)
    ensures OnSignal(s, SIGINT, pool).returncode == Some(130)
    ensures OnSignal(s, SIGTERM, pool).returncode == Some(143)
  {
  }

  /** How one iteration ended, and the state after it. */
  datatype Outcome = Outcome(status: Status, sched: Sched)

  /** The dispatch on `msg.type`: forward lines to the printer, announce
      starts and stops on the bus, and record the first exit status. Reading
      `data['pid']` or `data['returncode']` from the wrong payload raises. */
  function Dispatch(s: Sched, msg: Message): (r: Result<Sched, LoopError>)
    ensures msg.type_ == "start" ==> (r.Success? <==> msg.data.PidInfo?)
    ensures msg.type_ == "stop" ==> (r.Success? <==> msg.data.ReturncodeInfo?)
    ensures msg.type_ != "start" && msg.type_ != "stop" ==> r.Success?
    ensures r.Failure? ==> r.error == (if msg.data.Text? || msg.data.Bytes? then TypeError else KeyError)
    ensures r.Success? && (s.returncode.Some? || msg.type_ != "stop") ==> r.value.returncode == s.returncode
    ensures r.Success? && s.returncode.None? && msg.type_ == "stop" ==> r.value.returncode == Some(msg.data.returncode)
    ensures r.Success? && msg.type_ == "line" ==> r.value.printed == s.printed + [msg]
    ensures r.Success? && msg.type_ != "line" ==> r.value.printed == s.printed
    ensures r.Success? && msg.type_ == "start" ==>
              r.value.bus == SendSystem(s.bus, NameText(msg.name) + " started (pid=" + IntToString(msg.data.pid) + ")\n", s.stamp)
    ensures r.Success? && msg.type_ == "stop" ==>
              r.value.bus == SendSystem(s.bus, NameText(msg.name) + " stopped (rc=" + IntToString(msg.data.returncode) + ")\n", s.stamp)
    ensures r.Success? && msg.type_ != "start" && msg.type_ != "stop" ==> r.value.bus == s.bus
    ensures r.Success? ==> r.value == s.(bus := r.value.bus, printed := r.value.printed, returncode := r.value.returncode)
  {
    if msg.type_ == LINE_TYPE then Success(s.(printed := s.printed + [msg]))
    else if msg.type_ == START_TYPE then
      match msg.data
      case PidInfo(pid) =>
        Success(s.(bus := SendSystem(s.bus, NameText(msg.name) + " started (pid=" + IntToString(pid) + ")\n", s.stamp)))
      case ReturncodeInfo(_) => Failure(KeyError)
      case Text(_) => Failure(TypeError)
      case Bytes(_) => Failure(TypeError)
    else if msg.type_ == STOP_TYPE then
      match msg.data
      case ReturncodeInfo(rc) =>
        var s1 := s.(bus := SendSystem(s.bus, NameText(msg.name) + " stopped (rc=" + IntToString(rc) + ")\n", s.stamp));
        Success(if s1.returncode.None? then s1.(returncode := Some(rc)) else s1)
      case PidInfo(_) => Failure(KeyError)
      case Text(_) => Failure(TypeError)
      case Bytes(_) => Failure(TypeError)
    else Success(s)
  }

  /** Whether this iteration is the first to see everything started and
      something stopped. */
  predicate DrainBegins(s: Sched, pool: Pool)
  {
    s.exitStart.None? && AllStarted(pool) && AnyStopped(pool)
  }

  /** Whether more than `kill_wait` seconds have passed since the drain began. */
  predicate KillDue(s: Sched, now: Time)
  {
    s.exitStart.Some? && now - s.exitStart.value > s.killWait
  }

  /** First check: everything started and stopped sets `do_exit`. */
  function MarkExit(s: Sched, pool: Pool): (s': Sched)
    ensures s' == s.(doExit := s.doExit || (AllStarted(pool) && AllStopped(pool)))
  {
    if AllStarted(pool) && AllStopped(pool) then s.(doExit := true) else s
  }

  /** Second check: the first time everything has started and something has
      stopped, record the time and terminate. */
  function BeginDrain(s: Sched, now: Time, pool: Pool): (s': Sched)
    requires Valid(pool)
    ensures s'.exitStart == if DrainBegins(s, pool) then Some(now) else s.exitStart
    ensures s'.terminating == (s.terminating || DrainBegins(s, pool))
    ensures s'.requests == s.requests +
              (if DrainBegins(s, pool) && !s.terminating then RequestsFor(pool, Running(pool), false) else [])
    ensures s' == s.(exitStart := s'.exitStart, terminating := s'.terminating, bus := s'.bus, requests := s'.requests)
  {
    if DrainBegins(s, pool) then Terminate(s.(exitStart := Some(now)), pool) else s
  }

  /** Third check: past the grace period, kill whatever still runs. */
  function Escalate(s: Sched, now: Time, pool: Pool): (s': Sched)
    requires Valid(pool)
    ensures s'.requests == s.requests + (if KillDue(s, now) then RequestsFor(pool, Running(pool), true) else [])
    ensures s'.bus.queue == s.bus.queue + (if KillDue(s, now) then Enqueued(StopAll(pool, true, StopNotifier(s.stamp))) else [])
    ensures s' == s.(bus := s'.bus, requests := s'.requests)
  {
    if KillDue(s, now) then Kill(s, pool) else s
  }

  /** The three checks at the end of every iteration that did not break. */
  function Checks(s: Sched, now: Time, pool: Pool): (s': Sched)
    requires Valid(pool)
    ensures s' == s.(doExit := s'.doExit, exitStart := s'.exitStart, terminating := s'.terminating,
                     bus := s'.bus, requests := s'.requests)
    ensures s'.doExit == (s.doExit || (AllStarted(pool) && AllStopped(pool)))
    ensures s'.exitStart == if DrainBegins(s, pool) then Some(now) else s.exitStart
    ensures s'.terminating == (s.terminating || DrainBegins(s, pool))
    ensures s'.requests == s.requests
              + (if DrainBegins(s, pool) && !s.terminating then RequestsFor(pool, Running(pool), false) else [])
              + (if KillDue(s', now) then RequestsFor(pool, Running(pool), true) else [])
  {
    Escalate(BeginDrain(MarkExit(s, pool), now, pool), now, pool)
  }

  /** One iteration of the loop in `start()` on a received message. */
  function Handle(s: Sched, msg: Message, now: Time, pool: Pool): (o: Outcome)
    requires Valid(pool)
    ensures !o.status.Looping? ==> o.sched == s
    ensures o.status.Looping? ==> o.sched.printed == s.printed + (if msg.type_ == "line" then [msg] else [])
  {
    if msg.type_ == NO_MESSAGES_TYPE && s.doExit then Outcome(Exited, s)
    else
      match Dispatch(s, msg)
      case Failure(err) => Outcome(Raised(err), s)
      case Success(s1) => Outcome(Looping, Checks(s1, now, pool))
  }

  /** One iteration including the receive. */
  function Step(s: Sched, now: Time, pool: Pool): (o: Outcome)
    requires Valid(pool)
    ensures s.bus.queue == [] ==> o == Handle(s, NoMessages(s.stamp), now, pool)
    ensures s.bus.queue != [] ==> o == Handle(s.(bus := EventBus(s.bus.queue[1..])), s.bus.queue[0], now, pool)
  {
    var r := Receive(s.bus, s.stamp);
    Handle(s.(bus := r.bus), r.msg, now, pool)
  }

  /** The loop ends only on the sentinel once everything has started and
      stopped, and ending changes nothing. */
  lemma LoopBreaksOnlyWhenDrained(s: Sched, msg: Message, now: Time, pool: Pool)
    requires Valid(pool)
    ensures Handle(s, msg, now, pool).status == Exited <==> msg.type_ == "no_messages" && s.doExit
    ensures Handle(s, msg, now, pool).status == Exited ==> Handle(s, msg, now, pool).sched == s
  {
  }

  /** The first stop message sets the exit status; later ones keep it. */
  lemma FirstStopSetsReturncode(s: Sched, msg: Message, now: Time, pool: Pool)
    requires Valid(pool)
    ensures Handle(s, msg, now, pool).status.Looping? && s.returncode.Some? ==>
              Handle(s, msg, now, pool).sched.returncode == s.returncode
    ensures s.returncode.None? && !s.doExit && msg.type_ == "stop" && msg.data.ReturncodeInfo? ==>
              Handle(s, msg, now, pool).status.Looping? &&
              Handle(s, msg, now, pool).sched.returncode == Some(msg.data.returncode)
    ensures s.returncode.None? && msg.type_ != "stop" ==> Handle(s, msg, now, pool).sched.returncode.None?
  {
  }

  /** When everything has started and something has stopped for the first
      time, the iteration records the time and terminates (gracefully
      stopping whatever still runs unless termination already began). */
  lemma DrainStartsOnce(s: Sched, msg: Message, now: Time, pool: Pool)
    requires Valid(pool)
    requires Handle(s, msg, now, pool).status.Looping?
    ensures var s' := Handle(s, msg, now, pool).sched;
            && (s.exitStart.Some? ==> s'.exitStart == s.exitStart)
            && (s.exitStart.None? && AllStarted(pool) && AnyStopped(pool) ==>
                  s'.exitStart == Some(now) && s'.terminating)
            && (s.exitStart.None? && !(AllStarted(pool) && AnyStopped(pool)) ==> s'.exitStart.None?)
  {
  }

  /** `do_exit` is set once everything has started and stopped, and never cleared. */
  lemma DoExitOnceAllDone(s: Sched, msg: Message, now: Time, pool: Pool)
    requires Valid(pool)
    requires Handle(s, msg, now, pool).status.Looping?
    ensures Handle(s, msg, now, pool).sched.doExit <==> s.doExit || (AllStarted(pool) && AllStopped(pool))
  {
  }

  /** Every iteration more than `kill_wait` seconds after the drain began
      ends by force-stopping everything that still runs. */
  lemma KillAfterWait(s: Sched, msg: Message, now: Time, pool: Pool)
    requires Valid(pool)
    requires Handle(s, msg, now, pool).status.Looping?
    requires s.exitStart.Some? && now - s.exitStart.value > s.killWait
    ensures var s' := Handle(s, msg, now, pool).sched;
            var kills := RequestsFor(pool, Running(pool), true);
            && |s'.requests| >= |kills|
            && s'.requests[|s'.requests| - |kills|..] == kills
  {
    var s1 := Dispatch(s, msg).value;
    var s2 := BeginDrain(MarkExit(s1, pool), now, pool);
    assert s2.exitStart == s.exitStart && s2.killWait == s.killWait;
    var s' := Escalate(s2, now, pool);
    var kills := RequestsFor(pool, Running(pool), true);
    assert s'.requests == s2.requests + kills;
  }

  /** Before the drain began, or within `kill_wait` seconds of it, no
      iteration makes a forced request. */
  lemma NoKillBeforeWait(s: Sched, msg: Message, now: Time, pool: Pool)
    requires Valid(pool)
    requires Handle(s, msg, now, pool).status.Looping?
    requires s.exitStart.Some? ==> now - s.exitStart.value <= s.killWait
    ensures var s' := Handle(s, msg, now, pool).sched;
            && s.requests <= s'.requests
            && forall i :: |s.requests| <= i < |s'.requests| ==> s'.requests[i].TerminatePid?
  {
    var s1 := Dispatch(s, msg).value;
    var s2 := BeginDrain(MarkExit(s1, pool), now, pool);
    assert !KillDue(s2, now);
    assert Escalate(s2, now, pool).requests == s2.requests;
    if !s.terminating && DrainBegins(MarkExit(s1, pool), pool) {
      var stops := RequestsFor(pool, Running(pool), false);
      assert s2.requests == s.requests + stops;
      forall i | |s.requests| <= i < |s2.requests| ensures s2.requests[i].TerminatePid? {
        assert s2.requests[i] == stops[i - |s.requests|];
      }
    }
  }

  /** The loop hands the printer exactly the `'line'` messages it handles,
      appended in order. */
  lemma HandleForwardsLines(s: Sched, msg: Message, now: Time, pool: Pool)
    requires Valid(pool)
    ensures var o := Handle(s, msg, now, pool);
            o.sched.printed == if o.status.Looping? && msg.type_ == "line" then s.printed + [msg] else s.printed
  {
  }

  /** `Printer.write` accepts only `'output'` messages, so it raises on
      every `'line'` message the loop forwards to it. */
  lemma PrinterRejectsForwardedLines(printed: seq<Message>, p: Printer,
                                     strftime: (Time, string) -> string, decode: seq<byte> -> string)
    requires forall i :: 0 <= i < |printed| ==> printed[i].type_ == "line"
    ensures forall i :: 0 <= i < |printed| ==>
              Write(p, printed[i], strftime, decode) == Failure(RuntimeError(WRONG_TYPE_REASON))
  {
  }

  // ---------------------------------------------------------------------
  // Runs

  /** What can happen between and during iterations: one loop iteration at
      a time and pool snapshot, an executor thread sending a message, or a
      signal arriving. */
  datatype Event =
    | Tick(now: Time, pool: Pool)
    | Deliver(msg: Message)
    | Interrupt(sig: Signal, snapshot: Pool)

  ghost predicate ValidEvent(e: Event)
  {
    (e.Tick? ==> Valid(e.pool)) && (e.Interrupt? ==> Valid(e.snapshot))
  }

  ghost predicate ValidEvents(events: seq<Event>)
  {
    forall i :: 0 <= i < |events| ==> ValidEvent(events[i])
  }

  /** One event: a send, a signal handler run, or a loop iteration. */
  function Feed(s: Sched, e: Event): (o: Outcome)
    requires ValidEvent(e)
    ensures !e.Tick? ==> o.status.Looping?
    ensures e.Deliver? ==> o.sched == s.(bus := EventBus(s.bus.queue + [e.msg]))
    ensures e.Interrupt? ==> o.sched.returncode == Some(SignalExitCode(e.sig)) && o.sched.terminating
  {
    match e
    case Deliver(m) => Outcome(Looping, s.(bus := Send(s.bus, m)))
    case Interrupt(sig, pool) => Outcome(Looping, OnSignal(s, sig, pool))
    case Tick(now, pool) => Step(s, now, pool)
  }

  /** The loop driven by a sequence of events, until it breaks or raises. */
  function Run(s: Sched, events: seq<Event>): (o: Outcome)
    requires ValidEvents(events)
    ensures !o.status.Looping? ==> exists i :: 0 <= i < |events| && events[i].Tick?
    decreases |events|
  {
    if events == [] then Outcome(Looping, s)
    else
      var o := Feed(s, events[0]);
      if o.status.Looping? then Run(o.sched, events[1..]) else o
  }

  /** Nothing recorded is withdrawn between `s` and `s'`: the drain start,
      `do_exit` and `terminating` stay once set, and the request log only
      grows, with nothing but kills once the scheduler is terminating. */
  ghost predicate KeepsRecords(s: Sched, s': Sched)
  {
    && (s.exitStart.Some? ==> s'.exitStart == s.exitStart)
    && (s.doExit ==> s'.doExit)
    && (s.terminating ==> s'.terminating)
    && s.requests <= s'.requests
    && (s.terminating ==> forall i :: |s.requests| <= i < |s'.requests| ==> s'.requests[i].KillPid?)
  }

  lemma KeepsRecordsTransitive(s1: Sched, s2: Sched, s3: Sched)
    requires KeepsRecords(s1, s2) && KeepsRecords(s2, s3)
    ensures KeepsRecords(s1, s3)
  {
    if s1.terminating {
      forall i | |s1.requests| <= i < |s3.requests| ensures s3.requests[i].KillPid? {
        if i < |s2.requests| {
          assert s3.requests[i] == s2.requests[i];
        }
      }
    }
  }

  /** The graceful stop at the start of the drain keeps the records. */
  lemma BeginDrainKeepsRecords(s: Sched, now: Time, pool: Pool)
    requires Valid(pool)
    ensures KeepsRecords(s, BeginDrain(s, now, pool))
  {
    var s' := BeginDrain(s, now, pool);
    if s.terminating {
      assert s'.requests == s.requests + [];
    }
  }

  /** Escalation adds nothing but kills. */
  lemma EscalateKeepsRecords(s: Sched, now: Time, pool: Pool)
    requires Valid(pool)
    ensures KeepsRecords(s, Escalate(s, now, pool))
  {
    var s' := Escalate(s, now, pool);
    var kills := if KillDue(s, now) then RequestsFor(pool, Running(pool), true) else [];
    forall i | |s.requests| <= i < |s'.requests| ensures s'.requests[i].KillPid? {
      assert s'.requests[i] == kills[i - |s.requests|];
    }
  }

  /** The end-of-iteration checks keep the records and the exit status. */
  lemma ChecksKeepRecords(s: Sched, now: Time, pool: Pool)
    requires Valid(pool)
    ensures KeepsRecords(s, Checks(s, now, pool))
    ensures Checks(s, now, pool).returncode == s.returncode
  {
    var s1 := MarkExit(s, pool);
    var s2 := BeginDrain(s1, now, pool);
    BeginDrainKeepsRecords(s1, now, pool);
    EscalateKeepsRecords(s2, now, pool);
    KeepsRecordsTransitive(s, s1, s2);
    KeepsRecordsTransitive(s, s2, Escalate(s2, now, pool));
  }

  /** An iteration keeps the records, and the exit status once set. */
  lemma HandleKeepsRecords(s: Sched, msg: Message, now: Time, pool: Pool)
    requires Valid(pool)
    ensures KeepsRecords(s, Handle(s, msg, now, pool).sched)
    ensures s.returncode.Some? ==> Handle(s, msg, now, pool).sched.returncode == s.returncode
  {
    if Handle(s, msg, now, pool).status.Looping? {
      var s1 := Dispatch(s, msg).value;
      assert KeepsRecords(s, s1);
      ChecksKeepRecords(s1, now, pool);
      KeepsRecordsTransitive(s, s1, Checks(s1, now, pool));
    }
  }

  /** The same for an iteration including the receive. */
  lemma StepKeepsRecords(s: Sched, now: Time, pool: Pool)
    requires Valid(pool)
    ensures KeepsRecords(s, Step(s, now, pool).sched)
    ensures s.returncode.Some? ==> Step(s, now, pool).sched.returncode == s.returncode
  {
    var r := Receive(s.bus, s.stamp);
    HandleKeepsRecords(s.(bus := r.bus), r.msg, now, pool);
  }

  /** Every event keeps the records; only a signal may replace a recorded
      exit status. */
  lemma FeedKeepsRecords(s: Sched, e: Event)
    requires ValidEvent(e)
    ensures KeepsRecords(s, Feed(s, e).sched)
    ensures !e.Interrupt? && s.returncode.Some? ==> Feed(s, e).sched.returncode == s.returncode
  {
    if e.Tick? {
      StepKeepsRecords(s, e.now, e.pool);
    }
  }

  /** Over a whole run nothing recorded is withdrawn, so the drain start
      never moves and, once the scheduler is terminating, every further
      request is a kill: the graceful stop happens at most once. Without
      signals the first recorded exit status is the final one. */
  lemma {:induction false} RunKeepsRecords(s: Sched, events: seq<Event>)
    requires ValidEvents(events)
    ensures KeepsRecords(s, Run(s, events).sched)
    ensures (forall i :: 0 <= i < |events| ==> !events[i].Interrupt?) && s.returncode.Some? ==>
              Run(s, events).sched.returncode == s.returncode
    decreases |events|
  {
    if events != [] {
      var o := Feed(s, events[0]);
      FeedKeepsRecords(s, events[0]);
      if o.status.Looping? {
        assert ValidEvents(events[1..]) by {
          forall i | 0 <= i < |events[1..]| ensures ValidEvent(events[1..][i]) {
            assert events[1..][i] == events[i + 1];
          }
        }
        RunKeepsRecords(o.sched, events[1..]);
        KeepsRecordsTransitive(s, o.sched, Run(o.sched, events[1..]).sched);
        if forall i :: 0 <= i < |events| ==> !events[i].Interrupt? {
          assert !events[0].Interrupt?;
          assert forall i :: 0 <= i < |events[1..]| ==> !events[1..][i].Interrupt? by {
            forall i | 0 <= i < |events[1..]| ensures !events[1..][i].Interrupt? {
              assert events[1..][i] == events[i + 1];
            }
          }
        }
      }
    }
  }

  /** An iteration including the receive hands the printer only `'line'`
      messages, appended to what it had before. */
  lemma StepForwardsLines(s: Sched, now: Time, pool: Pool)
    requires Valid(pool)
    ensures var s' := Step(s, now, pool).sched;
            && s.printed <= s'.printed
            && forall i :: |s.printed| <= i < |s'.printed| ==> s'.printed[i].type_ == "line"
  {
    var r := Receive(s.bus, s.stamp);
    HandleForwardsLines(s.(bus := r.bus), r.msg, now, pool);
  }

  /** Every event hands the printer only `'line'` messages, appended to what
      it had before. */
  lemma FeedForwardsLines(s: Sched, e: Event)
    requires ValidEvent(e)
    ensures var s' := Feed(s, e).sched;
            && s.printed <= s'.printed
            && forall i :: |s.printed| <= i < |s'.printed| ==> s'.printed[i].type_ == "line"
  {
    if e.Tick? {
      StepForwardsLines(s, e.now, e.pool);
    }
  }

  /** Over a whole run the printer only ever receives `'line'` messages,
      appended to what it had received before; with `Printer.write` as the
      printer every one of them is rejected. */
  lemma {:induction false} RunForwardsOnlyLines(s: Sched, events: seq<Event>)
    requires ValidEvents(events)
    requires forall i :: 0 <= i < |s.printed| ==> s.printed[i].type_ == "line"
    ensures var s' := Run(s, events).sched;
            && s.printed <= s'.printed
            && forall i :: 0 <= i < |s'.printed| ==> s'.printed[i].type_ == "line"
    decreases |events|
  {
    if events != [] {
      var o := Feed(s, events[0]);
      FeedForwardsLines(s, events[0]);
      if o.status.Looping? {
        assert ValidEvents(events[1..]) by {
          forall i | 0 <= i < |events[1..]| ensures ValidEvent(events[1..][i]) {
            assert events[1..][i] == events[i + 1];
          }
        }
        assert forall i :: 0 <= i < |o.sched.printed| ==> o.sched.printed[i].type_ == "line" by {
          forall i | 0 <= i < |o.sched.printed| ensures o.sched.printed[i].type_ == "line" {
            if i < |s.printed| {
              assert o.sched.printed[i] == s.printed[i];
            }
          }
        }
        RunForwardsOnlyLines(o.sched, events[1..]);
      }
    }
  }
}

=== FILE: scheduler.dfy ===
/** compose/scheduler.py, the earlier revision of the scheduler loop, over
    the executors of compose/execution.py.

    Differences from the current revision: the pool is updated by the loop
    itself (`set_pid` on a start message, `set_rc` on a stop message),
    system notices go straight to the printer instead of through the queue,
    each notice is stamped with the time of the iteration, and the grace
    period is the constant `KILL_WAIT = 3`.

    `Pool` in compose/execution.py defines neither `set_pid` nor `set_rc`,
    so as written every well-formed start or stop message raises
    `AttributeError` out of the loop (`DispatchAsWritten`). The model that
    the rest of this module uses gives the two calls their evident meaning:
    update the named executor's pid or exit status in place. */
module Scheduler {
  import opened Base
  import opened Printing
  import opened Executors
  import opened Pools
  import opened Execution
  import opened Supervision

  const KILL_WAIT: nat := 3
  const SYSTEM_PRINTER_NAME := "system"

  /** The scheduler's fields and the loop's locals (`exit`, `exit_start`),
      plus the queue it shares with the executor threads, the messages it
      handed to the printer and the requests it made to the OS. */
  datatype Sched = Sched(
    pool: Pool,
    printer: Printer,
    events: seq<Message>,
    printed: seq<Message>,
    requests: seq<OsRequest>,
    returncode: Option<int>,
    terminating: bool,
    exit: bool,
    exitStart: Option<Time>)

  ghost predicate WellFormed(s: Sched)
  {
    Valid(s.pool)
  }

  /** `Scheduler(printer, os)` followed by entering `start()`. */
  function NewScheduler(printer: Printer): (s: Sched)
    ensures WellFormed(s)
    ensures s.pool.execs == map[] && s.printer == printer
    ensures s.events == [] && s.printed == [] && s.requests == []
    ensures s.returncode.None? && !s.terminating && !s.exit && s.exitStart.None?
  {
    Sched(Empty(), printer, [], [], [], None, false, false, None)
  }

  /** `add_service(name, cmd, color, quiet)`: a fresh executor registered
      under the name, and the printer widened to the name. */
  function AddService(s: Sched, name: string, color: Option<string>, quiet: bool): (s': Sched)
    requires WellFormed(s)
    ensures WellFormed(s')
    ensures Get(s'.pool, name) == Some(NewExecutor(Service(name, quiet, color)))
    ensures forall n :: n != name ==> Get(s'.pool, n) == Get(s.pool, n)
    ensures s'.printer == s.printer.(width := Max(s.printer.width, |name|))
    ensures s' == s.(pool := s'.pool, printer := s'.printer)
  {
    var e := NewExecutor(Service(name, quiet, color));
    AddThenGet(s.pool, e, name);
    s.(pool := Add(s.pool, e), printer := s.printer.(width := Max(s.printer.width, |name|)))
  }

  /** Registering services one after another leaves the printer at least as
      wide as every name registered. */
  lemma AddServiceWidens(s: Sched, name: string, color: Option<string>, quiet: bool)
    requires WellFormed(s)
    ensures AddService(s, name, color, quiet).printer.width >= s.printer.width
    ensures AddService(s, name, color, quiet).printer.width >= |name|
    ensures AddService(s, name, color, quiet).printer.width == s.printer.width || AddService(s, name, color, quiet).printer.width == |name|
  {
  }

  /** `set_pid(name, pid)` read as an update of the named executor; a name
      that is not registered changes nothing. */
  function SetPid(p: Pool, name: Option<string>, pid: int): (q: Pool)
    requires Valid(p)
    ensures Valid(q)
    ensures q.keys == p.keys && q.execs.Keys == p.execs.Keys
    ensures forall n :: n in p.execs ==>
              q.execs[n] == if name == Some(n) then p.execs[n].(childPid := Some(pid)) else p.execs[n]
  {
    if name.Some? && name.value in p.execs
    then Pool(p.keys, p.execs[name.value := p.execs[name.value].(childPid := Some(pid))])
    else p
  }

  /** `set_rc(name, rc)` read as an update of the named executor. */
  function SetRc(p: Pool, name: Option<string>, rc: int): (q: Pool)
    requires Valid(p)
    ensures Valid(q)
    ensures q.keys == p.keys && q.execs.Keys == p.execs.Keys
    ensures forall n :: n in p.execs ==>
              q.execs[n] == if name == Some(n) then p.execs[n].(returncode := Some(rc)) else p.execs[n]
  {
    if name.Some? && name.value in p.execs
    then Pool(p.keys, p.execs[name.value := p.execs[name.value].(returncode := Some(rc))])
    else p
  }

  /** The message `_system_print` hands to the printer. */
  function SystemLine(text: string, now: Time): (m: Message)
    ensures m.type_ == "line" && m.name == Some("system") && m.color == None
    ensures m.data == Text(text) && m.time == now
  {
    Message(LINE_TYPE, Text(text), Some(SYSTEM_PRINTER_NAME), now, None)
  }

  /** `_system_print(text)`: straight to the printer, bypassing the queue. */
  function SystemPrint(s: Sched, text: string, now: Time): (s': Sched)
    ensures s'.printed == s.printed + [SystemLine(text, now)]
    ensures s' == s.(printed := s'.printed)
  {
    s.(printed := s.printed + [SystemLine(text, now)])
  }

  /** Carry out the effects of stopping executors. The notices and the
      requests go to two independent destinations, so performing the effects
      one by one is the same as putting the notices on the queue in order and
      making the requests in order. */
  function ApplyEffects(s: Sched, effects: seq<Effect>): Sched
  {
    s.(events := s.events + Enqueued(effects), requests := s.requests + Requests(effects))
  }

  /** `terminate()`: only the first call has an effect. */
  function Terminate(s: Sched, now: Time): (s': Sched)
    requires WellFormed(s)
    ensures s'.terminating
    ensures s.terminating ==> s' == s
    ensures !s.terminating ==> s' == ApplyEffects(s.(terminating := true), StopAll(s.pool, false, StopNotifier(now)))
    ensures s'.requests == s.requests + (if s.terminating then [] else RequestsFor(s.pool, Running(s.pool), false))
    ensures s' == s.(terminating := true, events := s'.events, requests := s'.requests)
  {
    if s.terminating then s else ApplyEffects(s.(terminating := true), StopAll(s.pool, false, StopNotifier(now)))
  }

  /** `kill()`: stop every running executor forcefully. */
  function Kill(s: Sched, now: Time): (s': Sched)
    requires WellFormed(s)
    ensures s'.requests == s.requests + RequestsFor(s.pool, Running(s.pool), true)
    ensures s'.events == s.events + Enqueued(StopAll(s.pool, true, StopNotifier(now)))
    ensures s' == s.(events := s'.events, requests := s'.requests)
  {
    ApplyEffects(s, StopAll(s.pool, true, StopNotifier(now)))
  }

  /** `terminate()` twice is `terminate()` once: the graceful `stop_all` is
      issued at most once. */
  lemma TerminateIdempotent(s: Sched, now: Time, later: Time)
    requires WellFormed(s)
    ensures WellFormed(Terminate(s, now))
    ensures Terminate(Terminate(s, now), later) == Terminate(s, now)
  {
  }

  /** The handler `start()` installs for SIGINT and SIGTERM: print the
      notice, overwrite the exit status, terminate. */
  function OnSignal(s: Sched, sig: Signal, now: Time): (s': Sched)
    requires WellFormed(s)
    ensures WellFormed(s')
    ensures s'.returncode == Some(SignalExitCode(sig))
    ensures s'.terminating && s'.pool == s.pool
    ensures s'.exitStart == s.exitStart && s'.exit == s.exit
    ensures s'.printed == s.printed + [SystemLine(SignalLabel(sig) + " received\n", now)]
    ensures s.terminating ==> s'.requests == s.requests
    ensures !s.terminating ==> s'.requests == s.requests + RequestsFor(s.pool, Running(s.pool), false)
  {
    var s1 := SystemPrint(s, SignalLabel(sig) + " received\n", now);
    Terminate(s1.(returncode := Some(SignalExitCode(sig))), now)
  }

  /** SIGINT yields 130 and SIGTERM 143, whatever was recorded before. */
  lemma SignalExitCodes(s: Sched, now: Time)
    requires WellFormed(s)
    ensures OnSignal(s, SIGINT, now).returncode == Some(130)
    ensures OnSignal(s, SIGTERM, now).returncode == Some(143)
  {
  }

  /** The dispatch on `msg.type` with `set_pid`/`set_rc` as pool updates. */
  function Dispatch(s: Sched, msg: Message, now: Time): (r: Result<Sched, LoopError>)
    requires WellFormed(s)
    ensures r.Success? ==> WellFormed(r.value)
    ensures msg.type_ == "start" ==> (r.Success? <==> msg.data.PidInfo?)
    ensures msg.type_ == "stop" ==> (r.Success? <==> msg.data.ReturncodeInfo?)
    ensures msg.type_ != "start" && msg.type_ != "stop" ==> r.Success?
    ensures r.Failure? ==> r.error == (if msg.data.Text? || msg.data.Bytes? then TypeError else KeyError)
    ensures r.Success? && (s.returncode.Some? || msg.type_ != "stop") ==> r.value.returncode == s.returncode
    ensures r.Success? && s.returncode.None? && msg.type_ == "stop" ==> r.value.returncode == Some(msg.data.returncode)
    ensures r.Success? && msg.type_ == "line" ==> r.value.printed == s.printed + [msg] && r.value.pool == s.pool
    ensures r.Success? && msg.type_ == "start" ==>
              && r.value.pool == SetPid(s.pool, msg.name, msg.data.pid)
              && r.value.printed == s.printed + [SystemLine(NameText(msg.name) + " started (pid=" + IntToString(msg.data.pid) + ")\n", now)]
    ensures r.Success? && msg.type_ == "stop" ==>
              && r.value.pool == SetRc(s.pool, msg.name, msg.data.returncode)
              && r.value.printed == s.printed + [SystemLine(NameText(msg.name) + " stopped (rc=" + IntToString(msg.data.returncode) + ")\n", now)]
    ensures r.Success? && msg.type_ != "line" && msg.type_ != "start" && msg.type_ != "stop" ==>
              r.value.printed == s.printed && r.value.pool == s.pool
    ensures r.Success? ==> r.value == s.(pool := r.value.pool, printed := r.value.printed, returncode := r.value.returncode)
  {
    if msg.type_ == LINE_TYPE then Success(s.(printed := s.printed + [msg]))
    else if msg.type_ == START_TYPE then
      match msg.data
      case PidInfo(pid) =>
        var s1 := s.(pool := SetPid(s.pool, msg.name, pid));
        Success(SystemPrint(s1, NameText(msg.name) + " started (pid=" + IntToString(pid) + ")\n", now))
      case ReturncodeInfo(_) => Failure(KeyError)
      case Text(_) => Failure(TypeError)
      case Bytes(_) => Failure(TypeError)
    else if msg.type_ == STOP_TYPE then
      match msg.data
      case ReturncodeInfo(rc) =>
        var s1 := s.(pool := SetRc(s.pool, msg.name, rc));
        var s2 := SystemPrint(s1, NameText(msg.name) + " stopped (rc=" + IntToString(rc) + ")\n", now);
        Success(if s2.returncode.None? then s2.(returncode := Some(rc)) else s2)
      case PidInfo(_) => Failure(KeyError)
      case Text(_) => Failure(TypeError)
      case Bytes(_) => Failure(TypeError)
    else Success(s)
  }

  /** The dispatch as written: the payload is read first, and then the call
      to the missing `set_pid`/`set_rc` raises. */
  function DispatchAsWritten(s: Sched, msg: Message, now: Time): (r: Result<Sched, LoopError>)
    requires WellFormed(s)
    ensures (msg.type_ == "start" && msg.data.PidInfo?) || (msg.type_ == "stop" && msg.data.ReturncodeInfo?) ==>
              r == Failure(LoopError.AttributeError)
    ensures !((msg.type_ == "start" && msg.data.PidInfo?) || (msg.type_ == "stop" && msg.data.ReturncodeInfo?)) ==>
              r == Dispatch(s, msg, now)
  {
    if (msg.type_ == START_TYPE && msg.data.PidInfo?) || (msg.type_ == STOP_TYPE && msg.data.ReturncodeInfo?)
    then Failure(LoopError.AttributeError)
    else Dispatch(s, msg, now)
  }

  /** Whether this iteration begins the drain: nothing recorded yet,
      everything started and something stopped. */
  predicate DrainBegins(s: Sched)
  {
    s.exitStart.None? && AllStarted(s.pool) && AnyStopped(s.pool)
  }

  /** Whether more than `KILL_WAIT` seconds have passed since the drain began. */
  predicate KillDue(s: Sched, now: Time)
  {
    s.exitStart.Some? && now - s.exitStart.value > KILL_WAIT
  }

  /** First check: everything started and stopped sets `exit`. */
  function MarkExit(s: Sched): (s': Sched)
    ensures s' == s.(exit := s.exit || (AllStarted(s.pool) && AllStopped(s.pool)))
  {
    if AllStarted(s.pool) && AllStopped(s.pool) then s.(exit := true) else s
  }

  /** Second check: the first time everything has started and something has
      stopped, record the time and terminate. */
  function BeginDrain(s: Sched, now: Time): (s': Sched)
    requires WellFormed(s)
    ensures s'.exitStart == if DrainBegins(s) then Some(now) else s.exitStart
    ensures s'.terminating == (s.terminating || DrainBegins(s))
    ensures s'.requests == s.requests +
              (if DrainBegins(s) && !s.terminating then RequestsFor(s.pool, Running(s.pool), false) else [])
    ensures s' == s.(exitStart := s'.exitStart, terminating := s'.terminating, events := s'.events, requests := s'.requests)
  {
    if DrainBegins(s) then Terminate(s.(exitStart := Some(now)), now) else s
  }

  /** Third check: past the grace period, kill whatever still runs. */
  function Escalate(s: Sched, now: Time): (s': Sched)
    requires WellFormed(s)
    ensures s'.requests == s.requests + (if KillDue(s, now) then RequestsFor(s.pool, Running(s.pool), true) else [])
    ensures s'.events == s.events + (if KillDue(s, now) then Enqueued(StopAll(s.pool, true, StopNotifier(now))) else [])
    ensures s' == s.(events := s'.events, requests := s'.requests)
  {
    if KillDue(s, now) then Kill(s, now) else s
  }

  /** The three checks at the end of every iteration that did not break,
      timeouts included. */
  function Checks(s: Sched, now: Time): (s': Sched)
    requires WellFormed(s)
    ensures WellFormed(s')
    ensures s' == s.(exit := s'.exit, exitStart := s'.exitStart, terminating := s'.terminating,
                     events := s'.events, requests := s'.requests)
    ensures s'.exit == (s.exit || (AllStarted(s.pool) && AllStopped(s.pool)))
    ensures s'.exitStart == if DrainBegins(s) then Some(now) else s.exitStart
    ensures s'.terminating == (s.terminating || DrainBegins(s))
    ensures s'.requests == s.requests
              + (if DrainBegins(s) && !s.terminating then RequestsFor(s.pool, Running(s.pool), false) else [])
              + (if KillDue(s', now) then RequestsFor(s.pool, Running(s.pool), true) else [])
  {
    Escalate(BeginDrain(MarkExit(s), now), now)
  }

  /** How one iteration ended, and the state after it. */
  datatype Outcome = Outcome(status: Status, sched: Sched)

  /** The rest of an iteration once the message (if any) was dispatched. */
  function Continue(s: Sched, dispatched: Result<Sched, LoopError>, now: Time): (o: Outcome)
    requires dispatched.Success? ==> WellFormed(dispatched.value)
    ensures dispatched.Failure? ==> o == Outcome(Raised(dispatched.error), s)
    ensures dispatched.Success? ==> o.status == Looping && WellFormed(o.sched)
  {
    match dispatched
    case Failure(err) => Outcome(Raised(err), s)
    case Success(s1) => Outcome(Looping, Checks(s1, now))
  }

  /** One iteration of the loop in `start()`: `msg` is None on a queue
      timeout, which breaks the loop once `exit` is set and otherwise goes
      on to the checks. */
  function Handle(s: Sched, msg: Option<Message>, now: Time): (o: Outcome)
    requires WellFormed(s)
    ensures o.status.Looping? ==> WellFormed(o.sched)
  {
    if msg.None? then
      if s.exit then Outcome(Exited, s) else Continue(s, Success(s), now)
    else Continue(s, Dispatch(s, msg.value, now), now)
  }

  /** One iteration as written, with the missing pool methods. */
  function HandleAsWritten(s: Sched, msg: Option<Message>, now: Time): (o: Outcome)
    requires WellFormed(s)
    ensures msg.Some? && msg.value.type_ != "start" && msg.value.type_ != "stop" ==> o == Handle(s, msg, now)
    ensures msg.None? ==> o == Handle(s, msg, now)
  {
    if msg.None? then
      if s.exit then Outcome(Exited, s) else Continue(s, Success(s), now)
    else Continue(s, DispatchAsWritten(s, msg.value, now), now)
  }

  /** As written, the first well-formed start message ends `start()` with
      `AttributeError`, leaving the state as it was: the loop can never
      report a started service. */
  lemma AsWrittenStartRaises(s: Sched, name: Option<string>, pid: int, t: Time, color: Option<string>, now: Time)
    requires WellFormed(s)
    ensures HandleAsWritten(s, Some(Message("start", PidInfo(pid), name, t, color)), now) == Outcome(Raised(LoopError.AttributeError), s)
  {
  }

  /** With the pool update, a start message under a registered name records
      the pid on that executor and prints the notice; the iteration goes on. */
  lemma StartRecordsPid(s: Sched, name: string, pid: int, t: Time, color: Option<string>, now: Time)
    requires WellFormed(s)
    requires name in s.pool.execs
    ensures var o := Handle(s, Some(Message("start", PidInfo(pid), Some(name), t, color)), now);
            && o.status == Looping
            && o.sched.pool.execs[name].childPid == Some(pid)
            && o.sched.printed == s.printed + [SystemLine(name + " started (pid=" + IntToString(pid) + ")\n", now)]
  {
    var s1 := Dispatch(s, Message("start", PidInfo(pid), Some(name), t, color), now).value;
    assert s1.pool.execs[name].childPid == Some(pid);
    assert s1.printed == s.printed + [SystemLine(name + " started (pid=" + IntToString(pid) + ")\n", now)];
    assert Checks(s1, now).printed == s1.printed;
  }

  /** With the pool update, a stop message under a registered name records
      the exit status on that executor; the iteration goes on. */
  lemma StopRecordsReturncode(s: Sched, name: string, rc: int, t: Time, color: Option<string>, now: Time)
    requires WellFormed(s)
    requires name in s.pool.execs
    ensures var o := Handle(s, Some(Message("stop", ReturncodeInfo(rc), Some(name), t, color)), now);
            && o.status == Looping
            && o.sched.pool.execs[name].returncode == Some(rc)
            && AnyStopped(o.sched.pool)
            && o.sched.printed == s.printed + [SystemLine(name + " stopped (rc=" + IntToString(rc) + ")\n", now)]
  {
    var s1 := Dispatch(s, Message("stop", ReturncodeInfo(rc), Some(name), t, color), now).value;
    assert s1.pool.execs[name].returncode == Some(rc);
    assert s1.printed == s.printed + [SystemLine(name + " stopped (rc=" + IntToString(rc) + ")\n", now)];
    assert Checks(s1, now).printed == s1.printed;
  }

  /** On a timeout the loop breaks exactly when `exit` is set, and breaking
      changes nothing; a message never breaks it. */
  lemma LoopBreaksOnlyOnTimeout(s: Sched, msg: Option<Message>, now: Time)
    requires WellFormed(s)
    ensures Handle(s, msg, now).status == Exited <==> msg.None? && s.exit
    ensures Handle(s, msg, now).status == Exited ==> Handle(s, msg, now).sched == s
    ensures msg.None? && !s.exit ==> Handle(s, msg, now) == Outcome(Looping, Checks(s, now))
  {
  }

  /** The first stop message sets the exit status; later ones keep it. */
  lemma FirstStopSetsReturncode(s: Sched, msg: Option<Message>, now: Time)
    requires WellFormed(s)
    ensures Handle(s, msg, now).status.Looping? && s.returncode.Some? ==>
              Handle(s, msg, now).sched.returncode == s.returncode
    ensures s.returncode.None? && msg.Some? && msg.value.type_ == "stop" && msg.value.data.ReturncodeInfo? ==>
              Handle(s, msg, now).status.Looping? &&
              Handle(s, msg, now).sched.returncode == Some(msg.value.data.returncode)
    ensures s.returncode.None? && (msg.None? || msg.value.type_ != "stop") ==> Handle(s, msg, now).sched.returncode.None?
  {
  }

  /** `exit` is set once everything has started and stopped, as seen after
      the message's pool update, and never cleared. */
  lemma ExitOnceAllDone(s: Sched, msg: Option<Message>, now: Time)
    requires WellFormed(s)
    requires Handle(s, msg, now).status.Looping?
    ensures var s' := Handle(s, msg, now).sched;
            s'.exit <==> s.exit || (AllStarted(s'.pool) && AllStopped(s'.pool))
  {
  }

  /** When everything has started and something has stopped for the first
      time, the iteration records the time and terminates. */
  lemma DrainStartsOnce(s: Sched, msg: Option<Message>, now: Time)
    requires WellFormed(s)
    requires Handle(s, msg, now).status.Looping?
    ensures var s' := Handle(s, msg, now).sched;
            && (s.exitStart.Some? ==> s'.exitStart == s.exitStart)
            && (s.exitStart.None? && AllStarted(s'.pool) && AnyStopped(s'.pool) ==>
                  s'.exitStart == Some(now) && s'.terminating)
            && (s.exitStart.None? && !(AllStarted(s'.pool) && AnyStopped(s'.pool)) ==> s'.exitStart.None?)
  {
  }

  /** Every iteration more than three seconds after the drain began ends by
      force-stopping everything that still runs. */
  lemma KillAfterWait(s: Sched, msg: Option<Message>, now: Time)
    requires WellFormed(s)
    requires Handle(s, msg, now).status.Looping?
    requires s.exitStart.Some? && now - s.exitStart.value > 3
    ensures var s' := Handle(s, msg, now).sched;
            var kills := RequestsFor(s'.pool, Running(s'.pool), true);
            && |s'.requests| >= |kills|
            && s'.requests[|s'.requests| - |kills|..] == kills
  {
    var s1 := if msg.None? then s else Dispatch(s, msg.value, now).value;
    assert s1.exitStart == s.exitStart && WellFormed(s1);
    assert Handle(s, msg, now).sched == Checks(s1, now);
    var s2 := BeginDrain(MarkExit(s1), now);
    assert s2.exitStart == s.exitStart && s2.pool == s1.pool;
    var s' := Escalate(s2, now);
    var kills := RequestsFor(s1.pool, Running(s1.pool), true);
    assert s'.requests == s2.requests + kills;
  }

  /** Within three seconds of the drain, or before it, no iteration makes a
      forced request. */
  lemma NoKillBeforeWait(s: Sched, msg: Option<Message>, now: Time)
    requires WellFormed(s)
    requires Handle(s, msg, now).status.Looping?
    requires s.exitStart.Some? ==> now - s.exitStart.value <= 3
    ensures var s' := Handle(s, msg, now).sched;
            && s.requests <= s'.requests
            && forall i :: |s.requests| <= i < |s'.requests| ==> s'.requests[i].TerminatePid?
  {
    var s1 := if msg.None? then s else Dispatch(s, msg.value, now).value;
    var s0 := MarkExit(s1);
    var s2 := BeginDrain(s0, now);
    assert !KillDue(s2, now);
    assert Escalate(s2, now).requests == s2.requests;
    if !s.terminating && DrainBegins(s0) {
      var stops := RequestsFor(s1.pool, Running(s1.pool), false);
      assert s2.requests == s.requests + stops;
      forall i | |s.requests| <= i < |s2.requests| ensures s2.requests[i].TerminatePid? {
        assert s2.requests[i] == stops[i - |s.requests|];
      }
    }
  }

  /** Every system notice reaches the printer as a `'line'` message named
      `system` without color, and `Printer.write` rejects every one of them. */
  lemma SystemNoticesRejected(text: string, now: Time, p: Printer,
                              strftime: (Time, string) -> string, decode: seq<byte> -> string)
    ensures SystemLine(text, now).name == Some("system") && SystemLine(text, now).color == None
    ensures Write(p, SystemLine(text, now), strftime, decode) == Failure(RuntimeError(WRONG_TYPE_REASON))
  {
  }

  // ---------------------------------------------------------------------
  // Runs

  /** What can happen between iterations: one loop iteration at a time
      `now`, an executor thread putting a message on the queue, or a signal. */
  datatype Event =
    | Tick(now: Time)
    | Deliver(msg: Message)
    | Interrupt(sig: Signal, at: Time)

  /** One iteration including the `get` from the queue. */
  function Step(s: Sched, now: Time): (o: Outcome)
    requires WellFormed(s)
    ensures o.status.Looping? ==> WellFormed(o.sched)
  {
    if s.events == [] then Handle(s, None, now)
    else Handle(s.(events := s.events[1..]), Some(s.events[0]), now)
  }

  /** One event: a `put` on the queue, a signal handler run, or a loop
      iteration. */
  function Feed(s: Sched, e: Event): (o: Outcome)
    requires WellFormed(s)
    ensures o.status.Looping? ==> WellFormed(o.sched)
    ensures !e.Tick? ==> o.status.Looping?
    ensures e.Deliver? ==> o.sched == s.(events := s.events + [e.msg])
    ensures e.Interrupt? ==> o.sched.returncode == Some(SignalExitCode(e.sig)) && o.sched.terminating
  {
    match e
    case Deliver(m) => Outcome(Looping, s.(events := s.events + [m]))
    case Interrupt(sig, at) => Outcome(Looping, OnSignal(s, sig, at))
    case Tick(now) => Step(s, now)
  }

  /** The loop driven by a sequence of events, until it breaks or raises. */
  function Run(s: Sched, events: seq<Event>): (o: Outcome)
    requires WellFormed(s)
    ensures o.status.Looping? ==> WellFormed(o.sched)
    ensures !o.status.Looping? ==> exists i :: 0 <= i < |events| && events[i].Tick?
    decreases |events|
  {
    if events == [] then Outcome(Looping, s)
    else
      var o := Feed(s, events[0]);
      if o.status.Looping? then Run(o.sched, events[1..]) else o
  }

  /** Nothing recorded is withdrawn between `s` and `s'`: the drain start,
      `exit` and `terminating` stay once set, and the request log only
      grows, with nothing but kills once the scheduler is terminating. */
  ghost predicate KeepsRecords(s: Sched, s': Sched)
  {
    && (s.exitStart.Some? ==> s'.exitStart == s.exitStart)
    && (s.exit ==> s'.exit)
    && (s.terminating ==> s'.terminating)
    && s.requests <= s'.requests
    && (s.terminating ==> forall i :: |s.requests| <= i < |s'.requests| ==> s'.requests[i].KillPid?)
  }

  lemma KeepsRecordsTransitive(s1: Sched, s2: Sched, s3: Sched)
    requires KeepsRecords(s1, s2) && KeepsRecords(s2, s3)
    ensures KeepsRecords(s1, s3)
  {
    if s1.terminating {
      forall i | |s1.requests| <= i < |s3.requests| ensures s3.requests[i].KillPid? {
        if i < |s2.requests| {
          assert s3.requests[i] == s2.requests[i];
        }
      }
    }
  }

  /** The graceful stop at the start of the drain keeps the records. */
  lemma BeginDrainKeepsRecords(s: Sched, now: Time)
    requires WellFormed(s)
    ensures KeepsRecords(s, BeginDrain(s, now))
  {
    var s' := BeginDrain(s, now);
    if s.terminating {
      assert s'.requests == s.requests + [];
    }
  }

  /** Escalation adds nothing but kills. */
  lemma EscalateKeepsRecords(s: Sched, now: Time)
    requires WellFormed(s)
    ensures KeepsRecords(s, Escalate(s, now))
  {
    var s' := Escalate(s, now);
    var kills := if KillDue(s, now) then RequestsFor(s.pool, Running(s.pool), true) else [];
    forall i | |s.requests| <= i < |s'.requests| ensures s'.requests[i].KillPid? {
      assert s'.requests[i] == kills[i - |s.requests|];
    }
  }

  /** The end-of-iteration checks keep the records and the exit status. */
  lemma ChecksKeepRecords(s: Sched, now: Time)
    requires WellFormed(s)
    ensures KeepsRecords(s, Checks(s, now))
    ensures Checks(s, now).returncode == s.returncode
  {
    var s1 := MarkExit(s);
    var s2 := BeginDrain(s1, now);
    BeginDrainKeepsRecords(s1, now);
    EscalateKeepsRecords(s2, now);
    KeepsRecordsTransitive(s, s1, s2);
    KeepsRecordsTransitive(s, s2, Escalate(s2, now));
  }

  /** A whole iteration keeps the records, and the exit status once set. */
  lemma HandleKeepsRecords(s: Sched, msg: Option<Message>, now: Time)
    requires WellFormed(s)
    ensures KeepsRecords(s, Handle(s, msg, now).sched)
    ensures s.returncode.Some? ==> Handle(s, msg, now).sched.returncode == s.returncode
  {
    if Handle(s, msg, now).status.Looping? {
      var s1 := if msg.None? then s else Dispatch(s, msg.value, now).value;
      assert KeepsRecords(s, s1);
      ChecksKeepRecords(s1, now);
      KeepsRecordsTransitive(s, s1, Checks(s1, now));
    }
  }

  /** Every event keeps the records; only a signal may replace a recorded
      exit status. */
  lemma FeedKeepsRecords(s: Sched, e: Event)
    requires WellFormed(s)
    ensures KeepsRecords(s, Feed(s, e).sched)
    ensures !e.Interrupt? && s.returncode.Some? ==> Feed(s, e).sched.returncode == s.returncode
  {
    if e.Tick? {
      if s.events == [] {
        HandleKeepsRecords(s, None, e.now);
      } else {
        HandleKeepsRecords(s.(events := s.events[1..]), Some(s.events[0]), e.now);
      }
    }
  }

  /** Over a whole run nothing recorded is withdrawn: the drain start never
      moves and, once the scheduler is terminating, every further request
      is a kill. Without signals the first recorded exit status is the
      final one. */
  lemma {:induction false} RunKeepsRecords(s: Sched, events: seq<Event>)
    requires WellFormed(s)
    ensures KeepsRecords(s, Run(s, events).sched)
    ensures (forall i :: 0 <= i < |events| ==> !events[i].Interrupt?) && s.returncode.Some? ==>
              Run(s, events).sched.returncode == s.returncode
    decreases |events|
  {
    if events != [] {
      var o := Feed(s, events[0]);
      FeedKeepsRecords(s, events[0]);
      if o.status.Looping? {
        RunKeepsRecords(o.sched, events[1..]);
        KeepsRecordsTransitive(s, o.sched, Run(o.sched, events[1..]).sched);
        if forall i :: 0 <= i < |events| ==> !events[i].Interrupt? {
          assert !events[0].Interrupt?;
          assert forall i :: 0 <= i < |events[1..]| ==> !events[1..][i].Interrupt? by {
            forall i | 0 <= i < |events[1..]| ensures !events[1..][i].Interrupt? {
              assert events[1..][i] == events[i + 1];
            }
          }
        }
      }
    }
  }

  /** The printer's messages between `s` and `s'` only grow, and only with
      `'line'` messages. */
  ghost predicate PrintsLines(s: Sched, s': Sched)
  {
    s.printed <= s'.printed && forall i :: |s.printed| <= i < |s'.printed| ==> s'.printed[i].type_ == "line"
  }

  lemma PrintsLinesTransitive(s1: Sched, s2: Sched, s3: Sched)
    requires PrintsLines(s1, s2) && PrintsLines(s2, s3)
    ensures PrintsLines(s1, s3)
  {
    forall i | |s1.printed| <= i < |s3.printed| ensures s3.printed[i].type_ == "line" {
      if i < |s2.printed| {
        assert s3.printed[i] == s2.printed[i];
      }
    }
  }

  /** A dispatch prints at most one message, a `'line'`: the forwarded
      output or a system notice. */
  lemma DispatchPrintsLines(s: Sched, msg: Message, now: Time)
    requires WellFormed(s)
    requires Dispatch(s, msg, now).Success?
    ensures PrintsLines(s, Dispatch(s, msg, now).value)
    ensures |Dispatch(s, msg, now).value.printed| <= |s.printed| + 1
  {
  }

  /** A whole iteration: the checks print nothing. */
  lemma HandlePrintsLines(s: Sched, msg: Option<Message>, now: Time)
    requires WellFormed(s)
    ensures PrintsLines(s, Handle(s, msg, now).sched)
  {
    if Handle(s, msg, now).status.Looping? {
      var s1 := if msg.None? then s else Dispatch(s, msg.value, now).value;
      if msg.Some? {
        DispatchPrintsLines(s, msg.value, now);
      }
      assert Checks(s1, now).printed == s1.printed;
    }
  }

  /** Every event hands the printer only `'line'` messages, appended to
      what it had before: forwarded output and system notices alike. */
  lemma FeedPrintsLines(s: Sched, e: Event)
    requires WellFormed(s)
    ensures PrintsLines(s, Feed(s, e).sched)
  {
    if e.Tick? {
      if s.events == [] {
        HandlePrintsLines(s, None, e.now);
      } else {
        var s0 := s.(events := s.events[1..]);
        HandlePrintsLines(s0, Some(s.events[0]), e.now);
      }
    }
  }

  /** Over a whole run the printer only ever receives `'line'` messages, so
      with `Printer.write` as the printer every one of them is rejected. */
  lemma {:induction false} RunPrintsOnlyLines(s: Sched, events: seq<Event>)
    requires WellFormed(s)
    requires forall i :: 0 <= i < |s.printed| ==> s.printed[i].type_ == "line"
    ensures var s' := Run(s, events).sched;
            && s.printed <= s'.printed
            && forall i :: 0 <= i < |s'.printed| ==> s'.printed[i].type_ == "line"
    decreases |events|
  {
    if events != [] {
      var o := Feed(s, events[0]);
      FeedPrintsLines(s, events[0]);
      if o.status.Looping? {
        assert forall i :: 0 <= i < |o.sched.printed| ==> o.sched.printed[i].type_ == "line" by {
          forall i | 0 <= i < |o.sched.printed| ensures o.sched.printed[i].type_ == "line" {
            if i < |s.printed| {
              assert o.sched.printed[i] == s.printed[i];
            }
          }
        }
        RunPrintsOnlyLines(o.sched, events[1..]);
      }
    }
  }
}

=== FILE: supervision.dfy ===
/** Vocabulary shared by both revisions of the scheduler loop
    (compose/runtime.py and compose/scheduler.py): the signals it handles
    and the ways one iteration can end. */
module Supervision {
  import opened Base

  /** The two signals whose handler the loop installs. */
  datatype Signal = SIGINT | SIGTERM

  /** The exit status a signal imposes: 128 plus the signal number. */
  function SignalExitCode(sig: Signal): (code: int)
    ensures code == 128 + (match sig case SIGINT => 2 case SIGTERM => 15)
  {
    match sig
    case SIGINT => 130
    case SIGTERM => 143
  }

  /** The signal's name as the notice spells it. */
  function SignalLabel(sig: Signal): string
  {
    match sig
    case SIGINT => "SIGINT"
    case SIGTERM => "SIGTERM"
  }

  /** What an iteration can raise: indexing a payload that is not a
      dictionary, indexing a dictionary without the key, or calling a
      method the pool does not have. */
  datatype LoopError = TypeError | KeyError | AttributeError

  /** How one iteration ended: it goes on, it broke out of the loop, or it
      raised out of `start()`. */
  datatype Status = Looping | Exited | Raised(error: LoopError)

  /** `str(name)` in the notices: the name, or `None`. */
  function NameText(name: Option<string>): (text: string)
    ensures name.Some? ==> text == name.value
    ensures name.None? ==> text == "None"
  {
    if name.None? then "None" else name.value
  }
}
